=== FILE: README.md ===
# Ferrotall admin dashboard — a Dafny model of its stores, guard and notifications

The dashboard runs a scrap-collection business. It keeps clients, materials,
collections (`coletas`) and pickup requests (`solicitacoes`) in a hosted document
database. Admins sign in through a hosted auth provider, and clients are notified
through a push provider. All the logic lives in a handful of stores. Each mutating
store action (create, update, status change, delete) does the same thing:

1. it performs one or more remote writes;
2. it refetches its list;
3. it rethrows any failure.

The other actions differ from that shape, and their contracts say how:

- The fetch actions only read.
- `initMateriais` seeds through `createMaterial` and does no refetch of its own.
- `listenToSolicitacoes` and `stopListening` only manage a subscription.
- `loadUserProfile` and the notification history append swallow their failures.

This project models those stores, the router's navigation guard and the
notification dispatcher as pure Dafny functions and small methods. Every remote
call is a parameter (`Outcome`: done, or failed with a reason), as are the ids the
provider issues and the clock reading. Given those, each action is deterministic,
and its contract says what it leaves behind on every path.

Modules, one per file:

- `Docs` (`docs.dfy`): field values, results and errors, and the provider's `updateDoc` merge.
- `Ordering` (`ordering.dfy`): the provider's order on field values, used by `orderBy`.
- `Query` (`query.dfy`): one query, as the stores build them. It filters, sorts on one field in one direction, and optionally limits.
- `Coletas` (`coletas.dfy`): line and total computation, creation with request linking, the payment status, the filtered listing, and totals per material.
- `Materiais` (`materiais.dfy`): the default catalog, creation, merge update, price overrides, soft delete, the active-only listing, and seeding.
- `Clientes` (`clientes.dfy`): two-step client creation, the listing, update and the status toggle.
- `Solicitacoes` (`solicitacoes.dfy`): the status-update record, the listing, and the live listener, which share one store.
- `Auth` (`auth.dfy`): profile loading, login, logout, and the one-shot start-up listener.
- `Router` (`router.dfy`): route meta flags and the `beforeEach` decision.
- `Notifications` (`notifications.dfy`): single sends with their history entry, the canned notifications, and the admin fan-out.

Some behaviour of the code is easy to get wrong, and the model records it as written:

- The guard's admin rule redirects to "/", not to "/login".
- The guard's admin rule reads `tipo` on the provider's user object, not on the loaded profile (see Findings).
- The guard does not wait for the auth store's `loading` flag.
- The notification history entry is written only after the push request has completed and its reply has parsed as JSON. A failed push leaves no history.
- `updateStatus` accepts any status after any other. Nothing restricts transitions to moving forward.
- `login` leaves the user signed in when the forced sign-out itself fails.
- The auth-state listener is one-shot: it unsubscribes after the first event.
- The requests store keeps one `solicitacoes` list. `fetchSolicitacoes`, the refetch inside `updateStatus` and the live listener's snapshots all overwrite it.

## Model

| member | source | states |
|---|---|---|
| Docs.UpdateDoc | src/stores/materiais.js:82-86 | `updateDoc` fails when the call fails or the document is missing; otherwise the patch's fields replace or extend that one document and every other document and field is unchanged |
| Query.RunQuery | src/stores/coletas.js:25-47 | a query returns only stored documents the filter keeps, each once, in `orderBy` order; without a limit it returns all of them; with a limit it returns at most that many, and a left-out match implies the limit was reached with documents that sort before it |
| Query.SortSorted | src/stores/coletas.js:25 | the sort behind `orderBy` yields a sequence ordered by the provider's value order |
| Query.SortDistinct | src/stores/coletas.js:44-47 | sorting keeps documents distinct, so a listing never repeats a document |
| Ordering.ValueLeTrans | src/stores/materiais.js:44 | the value order `orderBy` sorts by is transitive |
| Ordering.ValueLeTotal | src/stores/materiais.js:44 | any two field values are comparable under that order |
| Coletas.ComputeLine | src/stores/coletas.js:74-78 | a stored line has `pesoLiquido = pesoBruto - pesoRecipiente` and `valorTotal = pesoLiquido * precoUnitario`, and keeps every other field the caller gave |
| Coletas.ComputeLineUnique | src/stores/coletas.js:74-78 | the recomputed line is the only consistent line with the caller's raw fields, so caller-supplied derived values never survive; a line that is already consistent is left unchanged |
| Coletas.ComputeLines | src/stores/coletas.js:74-78 | the stored lines have the caller's length and order, and each one is recomputed from the caller line at the same position |
| Coletas.ComputedTotalIsRawTotal | src/stores/coletas.js:80 | the left-to-right `reduce` over the recomputed lines equals the total taken straight from the raw weights and prices |
| Coletas.SumValorAppend | src/stores/coletas.js:80 | the running sum of line totals splits over concatenation |
| Coletas.BuildColeta | src/stores/coletas.js:82-94 | a new record is well formed, its total is the raw total (0 for no lines), and its status is "pendente"; `dataColeta` falls back to now only when none is given; client, collector and container type and location are copied |
| Coletas.SetStatusPagamento | src/stores/coletas.js:120-124 | `dataPagamento` is set (to now) exactly when the status is "pago"; `updatedAt` is stamped; nothing else changes, so well-formedness is kept |
| Coletas.ActionsKeepWellFormed | src/stores/coletas.js:74-124 | creation and payment-status updates keep every stored record's total equal to the sum of its consistent lines |
| Coletas.SortedByDateIsNewestFirst | src/stores/coletas.js:25 | ordering on `dataColeta` descending puts newer records first |
| Coletas.FetchColetas | src/stores/coletas.js:22-47 | every result meets the client filter (when a non-empty one is given) and the inclusive date range (only when both bounds are given); results are distinct and newest first; with no or zero limit all matches are returned; with a positive limit at most that many, the newest; a negative limit is refused |
| Coletas.CreateColeta | src/stores/coletas.js:70-115 | the built record is stored under the new id, which is returned; with a request id, that request gets status "concluida", `dataConclusao` and `coletaId` = the new id, the set of requests stays the same, and no other request or field changes; without one, no request is touched; a failed link or refetch leaves the record stored and the cache as it was, and the call fails |
| Coletas.UpdateStatusPagamento | src/stores/coletas.js:117-130 | the one record gets the new payment status; a failed write or a missing record changes nothing; a failed refetch keeps the write and the old cache |
| Coletas.GroupMatchesOf | src/stores/coletas.js:151-168 | a material has a total exactly when it has lines, and the total holds the sums of their net weights and totals and their count |
| Coletas.GroupIsPerMaterialSum | src/stores/coletas.js:151-168 | each occurring material name maps to its per-material sums and line count; a name that never occurs has no entry |
| Coletas.GroupCountsEveryLine | src/stores/coletas.js:155-164 | the per-material counts add up to the number of lines grouped |
| Coletas.TotalPorMaterialCounts | src/stores/coletas.js:151-168 | over the cached list, the `quantidade` values add up to the number of lines of all cached records |
| Materiais.NewMaterial | src/stores/materiais.js:62-68 | a new material is active, has an empty override map and the given name, and its default price is the parsed price, or 0 when parsing gives NaN or 0 |
| Materiais.FetchMateriais | src/stores/materiais.js:38-57 | the listing holds exactly the stored materials whose `active` is true, each once, ordered by `nome` |
| Materiais.ListingIsActiveOnly | src/stores/materiais.js:41-45 | a named material is listed if and only if it is active, so a soft-deleted one is never listed |
| Materiais.ListingByName | src/stores/materiais.js:44 | listed names are in lexicographic order |
| Materiais.CreateMaterial | src/stores/materiais.js:59-77 | the new material is stored under the new id, which is returned and appears in the refetched listing; a failed add changes nothing |
| Materiais.UpdateMaterial | src/stores/materiais.js:79-94 | the patch's fields win, other fields are kept, and `updatedAt` is stamped last; other materials are unchanged |
| Materiais.WithOverride | src/stores/materiais.js:98-102 | setting an override changes only the price map and `updatedAt`, and in the map only the one client's key |
| Materiais.SetPrecoPersonalizado | src/stores/materiais.js:96-108 | the client's override becomes the parsed price; every other client's override and every other field and material stay as they were |
| Materiais.DeleteMaterial | src/stores/materiais.js:110-126 | only `active` (now false) and `deletedAt` change; the document stays stored, and the refetched listing leaves it out |
| Materiais.CatalogShapeKept | src/stores/materiais.js:62-68 | a soft delete or a price override keeps a material's catalog shape |
| Materiais.FirstFailure | src/stores/materiais.js:132-134 | the seeding loop's stopping point: every earlier step succeeded and the step there failed |
| Materiais.InitMateriais | src/stores/materiais.js:128-136 | a failed read changes nothing; a non-empty collection, even one with every material soft-deleted, is left alone; an empty one gets the default materials in order, up to the first failure; success means all were written |
| Materiais.SeededKeys | src/stores/materiais.js:132-134 | seeding writes under exactly the given ids |
| Materiais.SeededValues | src/stores/materiais.js:132-134 | with distinct ids, each id holds the default material of its position at price 0, one document per name |
| Materiais.FullSeedIsCatalog | src/stores/materiais.js:22-36 | a complete seed holds 13 materials, one per default name, each active at price 0 |
| Clientes.Profile | src/stores/clientes.js:69-78 | the profile has `tipo` "cliente", `ativo` true, empty-string defaults for missing or empty tax id, address and phone, and no `senha` field |
| Clientes.FetchClientes | src/stores/clientes.js:23-42 | the listing holds exactly the users whose `tipo` is "cliente", each once, ordered by `nome`, active or not |
| Clientes.ListingIgnoresAtivo | src/stores/clientes.js:26-30 | a named user is listed if and only if their `tipo` is "cliente", whatever `ativo` holds |
| Clientes.CreateCliente | src/stores/clientes.js:58-91 | the credential comes first; its uid keys the profile and is returned; a failed credential step writes nothing; a failed profile write leaves the credential with no profile and rethrows |
| Clientes.CreationPairing | src/stores/clientes.js:62-81 | a completed creation keeps credentials and profiles paired one to one; a failure after the credential step breaks the pairing, though every profile still has a credential |
| Clientes.UpdateCliente | src/stores/clientes.js:93-108 | the patch is merged over the profile under the same id, and `atualizadoEm` is stamped |
| Clientes.ToggleClienteStatus | src/stores/clientes.js:110-119 | only `ativo` and `atualizadoEm` change |
| Solicitacoes.FetchSolicitacoes | src/stores/solicitacoes.js:22-45 | the store's list becomes the dated requests in the given status (all of them for no status or ""), each once, ordered by `dataSolicitacao` descending; a failed read is rethrown and changes nothing |
| Solicitacoes.ListingByStatus | src/stores/solicitacoes.js:25-32 | with a status, a dated request is listed if and only if it has that status; without one, every dated request is listed |
| Solicitacoes.ListingNewestFirst | src/stores/solicitacoes.js:27 | on timestamps, an earlier position never holds an older request |
| Solicitacoes.StatusUpdate | src/stores/solicitacoes.js:64-74 | keys in `dados`, including `status`, override `status` and `updatedAt`; `dataAgendamento` is added for "agendada" and `dataConclusao` for "concluida", after `dados`, so they win over it |
| Solicitacoes.StatusDatesExclusive | src/stores/solicitacoes.js:70-74 | a date key is in the record if and only if its status was asked for or the caller passed it |
| Solicitacoes.UpdateStatus | src/stores/solicitacoes.js:61-82 | the update succeeds from any current status; fields not in the record stay unchanged; the refetch is unfiltered |
| Solicitacoes.AnyTransition | src/stores/solicitacoes.js:61-76 | whatever the current status, the request ends in the asked-for status unless `dados` overrides it |
| Solicitacoes.Listen | src/stores/solicitacoes.js:84-103 | a new subscription replaces the handle without releasing the previous one |
| Solicitacoes.StopListening | src/stores/solicitacoes.js:105-110 | stopping releases the held subscription and nulls the handle; with no handle it does nothing |
| Solicitacoes.StopListeningIdempotent | src/stores/solicitacoes.js:105-110 | a repeated stop is a no-op |
| Solicitacoes.SecondListenLeaks | src/stores/solicitacoes.js:84-110 | listening twice and then stopping leaves the first subscription alive |
| Solicitacoes.OnSnapshot | src/stores/solicitacoes.js:84-102 | a live subscription delivers exactly the pending requests, newest first, and overwrites the store's one list with the "pendente" status listing, whatever a fetch left there; a released one delivers nothing |
| Solicitacoes.PendingIsStatusListing | src/stores/solicitacoes.js:85-89 | the listener's query is the status listing for "pendente" |
| Solicitacoes.SnapshotDropsRefetched | src/stores/solicitacoes.js:35-101 | a dated request that is not pending is in the list the unfiltered refetch leaves and is gone from the list a snapshot leaves |
| Auth.LoadUserProfile | src/stores/auth.js:36-45 | an existing document becomes the profile, with `id` added; a missing document or a failed read leaves the previous profile, and nothing is rethrown |
| Auth.Logout | src/stores/auth.js:90-107 | the push SDK's logout is queued first; a failed sign-out changes nothing else and rethrows; otherwise user and profile are cleared and the app goes to "/login" |
| Auth.Login | src/stores/auth.js:47-88 | a rejected sign-in leaves the session alone; success means the user is set and the session is exactly what `loadUserProfile` left (the read document with `id` added, or the stale profile when the read fails), an admin's; a missing profile or a non-admin one forces a logout and an error |
| Auth.AdminCheckReadsDocument | src/stores/auth.js:40-64 | the admin check on a freshly loaded profile decides on the document's own `tipo` |
| Auth.StaleProfileAdmits | src/stores/auth.js:36-64 | when the profile read fails, an admin profile left from before lets `login` succeed |
| Auth.LoginThenLogout | src/stores/auth.js:99-101 | after a successful logout no user or profile remains |
| Auth.InitAuth | src/stores/auth.js:18-20 | start-up sets `loading` and subscribes |
| Auth.OnAuthEvent | src/stores/auth.js:21-32 | the first event sets or clears the user, loads the profile, ends loading and unsubscribes; later events change nothing |
| Auth.OneShot | src/stores/auth.js:21-32 | only the first auth event after start-up has any effect |
| Router.MetaOf | src/router/index.js:7-16 | "/login" requires a guest; every route under "/" requires a signed-in admin |
| Router.Decide | src/router/index.js:69-81 | first match wins: no user on an auth route goes to "/login"; every other redirect (a user on a guest route, an admin route without `user.tipo` "admin") goes to "/"; the navigation is allowed exactly when no rule applies |
| Router.DecideIntended | src/router/index.js:72-80 | the same decision and the same targets, with the admin rule reading the profile's `tipo` |
| Router.AnonymousGoesToLogin | src/router/index.js:72-73 | an anonymous visitor to any route under "/" is sent to "/login" and may visit "/login" |
| Router.SignedInLeavesLogin | src/router/index.js:74-75 | a signed-in visitor to "/login" is sent to "/" |
| Router.SelfRedirect | src/router/index.js:76-77 | a signed-in user whose provider object lacks an admin `tipo` is sent from any dashboard route to "/", and from "/" to "/" again |
| Router.IntendedNoSelfRedirect | src/router/index.js:76-77 | with the intended rule an admin passes every dashboard route |
| Router.LoginThenGuard | src/router/index.js:76-77 | after a successful admin `login`, the guard as written still turns the admin away from every dashboard route; the intended guard lets them in |
| Notifications.HistoryRecord | src/services/notifications.js:55-61 | a history entry holds the given title, message and data, and `read` is false |
| Notifications.ArrayUnion | src/services/notifications.js:55 | the entry is appended to an existing array unless an equal entry is already there, in which case the array is left as it was; any other field value becomes the one-entry array |
| Notifications.SaveNotification | src/services/notifications.js:51-66 | on success, only the recipient's `notifications` field changes: it becomes the `arrayUnion` of the old history and the new entry, so every earlier entry keeps its place; any failure is swallowed and changes nothing |
| Notifications.SendNotificationToUser | src/services/notifications.js:11-46 | unconfigured, nothing is sent or recorded and the call returns; otherwise the request goes out; a failed request or unparsable reply is rethrown with no history; a parsed reply (any HTTP status) is returned, and the history entry is attempted |
| Notifications.HistoryFailureSwallowed | src/services/notifications.js:39-41 | a failed history append still returns the push result |
| Notifications.NotifyCollectionScheduled | src/services/notifications.js:71-81 | unconfigured, nothing happens and the call returns; otherwise exactly one request goes to the client with the fixed title and message, type "collection_scheduled" and the collection id; a failed send is rethrown with no history, and a delivered one returns with the history save attempted |
| Notifications.ScheduledHistoryMatchesPush | src/services/notifications.js:71-81 | after a delivered push and a successful save, the client's history is the old history with an entry built from the very request sent |
| Notifications.NotifyCollectionCompleted | src/services/notifications.js:86-97 | unconfigured, nothing happens and the call returns; otherwise exactly one request is appended, earlier requests kept, with the formatted value in the message and type "collection_completed", the id and the value in the data; a failed send is rethrown with no history, and a delivered one returns with the history save attempted |
| Notifications.CompletedHistoryMatchesPush | src/services/notifications.js:86-97 | after a delivered push and a successful save, the client's history is the old history with an entry built from the very request sent |
| Notifications.AdminRequests | src/services/notifications.js:104-112 | every admin gets the same title, message and data `{type: "new_request", solicitacaoId}` |
| Notifications.NotifyAdminNewRequest | src/services/notifications.js:102-114 | admins are sent to in list order; the first failing send ends the loop and is rethrown; unconfigured, nothing happens |
| Notifications.FanOutUnconfigured | src/services/notifications.js:15-18 | with no app id or no REST key, the fan-out sends and records nothing and returns normally |
| Notifications.FanOutThrows | src/services/notifications.js:103-113 | the fan-out throws exactly when some send fails |
| Notifications.FanOutSendsInOrder | src/services/notifications.js:103-113 | when the k-th send fails, admins 1..k were sent the request in order and later admins were not |
| Notifications.FanOutSparesTheRest | src/services/notifications.js:103-113 | admins after the first failing send get no history entry |

## Left out

- Coletas.ComputeLine: weights and prices are exact reals the caller has already parsed. `parseFloat` on text, NaN propagating through the arithmetic, and IEEE-754 rounding are not modelled.
- Coletas.SumValor, Coletas.SumPeso, Coletas.Group, Coletas.TotalPorMaterial: the sums are exact real sums. The floating-point rounding and NaN propagation of the code's additions are not modelled.
- Every listing keeps the document id (`Entry.id`) apart from the stored fields. The code builds `{id: doc.id, ...doc.data()}`, so a stored `id` field would replace the document id in the cached entry. Stored documents are assumed to carry no `id` field that differs from their document id.
- Coletas.FetchColetas: a non-integer limit is not modelled. Ties on `dataColeta` are left in an open order, though the provider breaks them by document id.
- Materiais.FetchMateriais: ties on `nome` are left in an open order, though the provider breaks them by document id.
- Clientes.FetchClientes: ties on `nome` are left in an open order, though the provider breaks them by document id.
- Solicitacoes.FetchSolicitacoes: ties on `dataSolicitacao` are left in an open order, though the provider breaks them by document id.
- Solicitacoes.OnSnapshot: the callback is taken to return normally. The code calls it before assigning the list, so a callback that throws skips the assignment; that path is not modelled.
- Solicitacoes.OnSnapshot: ties on `dataSolicitacao` are left in an open order, though the provider breaks them by document id.
- Materiais.NewMaterial: the price argument arrives already parsed (`Parsed`). How `parseFloat` reads a given text is not modelled.
- Solicitacoes.Listen: requires a subscription id the provider has not handed out before, as the provider guarantees.
- Notifications.NotifyCollectionCompleted: the text `toFixed(2)` prints is a parameter. The decimal formatting itself is not modelled.
- Notifications.SendNotificationToUser: the request body is reduced to its addressee, texts and data. The two language variants and the JSON encoding are not modelled.
- The single-record reads `getColeta`, `getCliente` and `getSolicitacao`, plus `getColetasPorPeriodo` and `resetPassword`, are left out. Each is one provider call with no logic of its own.
- The `loading` flags of the stores are not modelled. They are display state that no decision reads.
- Interleavings of concurrent actions are not modelled. Two overlapping refetches, for example, end with the later reply; each action is modelled as running alone.
- Each action reads the clock once. The code reads `Timestamp.now()` several times within one action, and those readings can differ slightly.
- Patch keys are top-level field names. The provider's reading of a dotted key in a caller's patch as a nested path, and its refusal of `undefined` values, are not modelled.
- The provider's value order is not fully modelled. It compares arrays and maps element by element, while the model treats any two of them as equal.
- `totalPorMaterial` names are plain map keys. The code's plain-object lookup would misbehave for names such as `__proto__`.
- Creating a client also signs the new client in on the auth provider. This is not modelled, because the store's session is only updated by the one-shot start-up listener.
- The push SDK plugin (script injection and its deferred queue) and the application bootstrap are left out. They are foreign-SDK and UI plumbing. The login and logout requests the auth store queues for the SDK are recorded as effects.
- Route components, lazy loading and the router's history are left out.

## Findings

| source | as written | input that shows it | evidently intended | confidence | as-written member | corrected member |
|---|---|---|---|---|---|---|
| src/router/index.js:76 | the admin rule reads `authStore.user?.tipo`, a property of the auth provider's user object, which never carries one | an admin signs in successfully (`userProfile.tipo` is "admin", the provider user has no `tipo`) and the app navigates to "/" | the rule reads `userProfile.tipo`, where the role is stored | high (not executed) | Router.LoginThenGuard | Router.IntendedNoSelfRedirect |

With the rule as written, the guard sends the admin from "/" to "/" again, so the dashboard can never be reached. `Router.Decide` models the rule as written; `Router.SelfRedirect` and `Router.LoginThenGuard` exhibit the loop. `Router.DecideIntended` reads the loaded profile, and `Router.IntendedNoSelfRedirect` proves that an admin passes every dashboard route with it.

=== FILE: auth.dfy ===
/** The admin session (`auth` store): who is signed in (`user`), the profile document
    read for them (`userProfile`), and the one-shot start-up listener. Only profiles
    whose `tipo` is "admin" may stay signed in through `login`. */
module Auth {
  import opened Docs

  /** The provider's user object: its uid and whatever other properties it carries. */
  datatype AuthUser = AuthUser(uid: Id, props: Fields)

  datatype Session = Session(
    user: Option<AuthUser>,
    profile: Option<Fields>,
    loading: bool,
    listening: bool)   // the start-up auth-state subscription is still registered

  /** What the app asks of the outside world, in order: the push SDK's login/logout
      (queued only when the SDK is loaded) and router navigations. */
  datatype Effect = PushLogin(uid: Id) | PushLogout | Navigate(path: string)

  /** The outcome of one action: the new session, the effects it queued, and whether it
      returned or threw. */
  datatype Step = Step(session: Session, effects: seq<Effect>, result: Result<()>)

  /** What reading `users/{uid}` gave. */
  datatype ProfileRead = ReadFailed(reason: string) | Missing | Found(doc: Fields)

  /** What `signInWithEmailAndPassword` gave. */
  datatype SignIn = Rejected(reason: string) | Accepted(signedIn: AuthUser)

  /** The profile `tipo`, when the profile has one. */
  function TipoOf(profile: Fields): Option<Value> {
    if "tipo" in profile then Some(profile["tipo"]) else None
  }

  predicate IsAdmin(profile: Fields) {
    TipoOf(profile) == Some(Str("admin"))
  }

  /** `loadUserProfile(uid)`: an existing document becomes the profile, with `id` set to
      the uid unless the document has its own `id` field; a missing document or a failed
      read leaves whatever profile was there, and the failure is swallowed. */
  function LoadUserProfile(s: Session, uid: Id, read: ProfileRead): (r: Session)
    ensures r.user == s.user && r.loading == s.loading && r.listening == s.listening
    ensures read.Found? ==> r.profile.Some? && r.profile.value.Keys == read.doc.Keys + {"id"}
    ensures read.Found? ==> forall k :: k in read.doc ==> r.profile.value[k] == read.doc[k]
    ensures read.Found? && "id" !in read.doc ==> r.profile.value["id"] == Str(uid)
    ensures !read.Found? ==> r == s
  {
    match read
    case Found(d) => s.(profile := Some(map["id" := Str(uid)] + d))
    case _ => s
  }

  /** `logout()`: queues the push SDK's logout before anything else, then signs out. A
      rejected sign-out changes nothing more and is rethrown; otherwise user and profile
      are cleared and the app navigates to "/login". */
  function Logout(s: Session, sdk: bool, signOutO: Outcome): (r: Step)
    ensures r.effects == (if sdk then [PushLogout] else []) + (if signOutO.Done? then [Navigate("/login")] else [])
    ensures signOutO.Fails? ==> r.session == s && r.result == Err(Backend(signOutO.reason))
    ensures signOutO.Done? ==> r.session == s.(user := None, profile := None) && r.result.Ok?
    ensures r.result.Ok? <==> signOutO.Done?
  {
    var queued := if sdk then [PushLogout] else [];
    match signOutO
    case Fails(reason) => Step(s, queued, Err(Backend(reason)))
    case Done => Step(s.(user := None, profile := None), queued + [Navigate("/login")], Ok(()))
  }

  /** `login(email, password)`. After the credential is accepted the user is set first
      and the profile loaded; then a missing profile or a non-admin one signs the user
      out again and the call throws (with the sign-out's own error if that fails too). */
  function Login(s: Session, sdk: bool, signIn: SignIn, read: ProfileRead, signOutO: Outcome): (r: Step)
    ensures signIn.Rejected? ==> r == Step(s, [], Err(Backend(signIn.reason)))
    ensures r.result.Ok? <==>
              && signIn.Accepted?
              && var loaded := LoadUserProfile(s.(user := Some(signIn.signedIn)), signIn.signedIn.uid, read);
                 loaded.profile.Some? && IsAdmin(loaded.profile.value)
    ensures r.result.Ok? ==>
              r.session == LoadUserProfile(s.(user := Some(signIn.signedIn)), signIn.signedIn.uid, read)
    ensures r.result.Ok? ==>
              && r.session.user == Some(signIn.signedIn)
              && r.session.profile.Some? && IsAdmin(r.session.profile.value)
              && r.effects == (if sdk then [PushLogin(signIn.signedIn.uid)] else []) + [Navigate("/")]
    ensures signIn.Accepted? && r.result.Err? ==>
              && r.effects == (if sdk then [PushLogout] else []) + (if signOutO.Done? then [Navigate("/login")] else [])
              && (signOutO.Done? ==> r.session.user.None? && r.session.profile.None?)
              && (signOutO.Fails? ==> r.session.user == Some(signIn.signedIn) && r.result == Err(Backend(signOutO.reason)))
    ensures signIn.Accepted? && signOutO.Done? && read.Missing? && s.profile.None? ==> r.result == Err(ProfileMissing)
    ensures signIn.Accepted? && signOutO.Done? && read.Found? && !IsAdmin(read.doc) ==>
              r.result == Err(AccessDenied(TipoOf(read.doc)))
    ensures r.session.loading == s.loading && r.session.listening == s.listening
  {
    match signIn
    case Rejected(reason) => Step(s, [], Err(Backend(reason)))
    case Accepted(u) =>
      var loaded := LoadUserProfile(s.(user := Some(u)), u.uid, read);
      if loaded.profile.None? then
        var out := Logout(loaded, sdk, signOutO);
        if out.result.Err? then out else out.(result := Err(ProfileMissing))
      else if !IsAdmin(loaded.profile.value) then
        var out := Logout(loaded, sdk, signOutO);
        if out.result.Err? then out else out.(result := Err(AccessDenied(TipoOf(loaded.profile.value))))
      else
        Step(loaded, (if sdk then [PushLogin(u.uid)] else []) + [Navigate("/")], Ok(()))
  }

  /** A found profile always carries `tipo` from the document, so the `id` the store adds
      never decides the admin check. */
  lemma AdminCheckReadsDocument(s: Session, uid: Id, d: Fields)
    ensures var r := LoadUserProfile(s, uid, Found(d));
            IsAdmin(r.profile.value) <==> IsAdmin(d)
  {
  }

  /** A failed profile read keeps the previous session's profile, so an admin profile
      left over from before admits a user whose own profile was never read. */
  lemma StaleProfileAdmits(s: Session, sdk: bool, u: AuthUser, reason: string, signOutO: Outcome)
    requires s.profile.Some? && IsAdmin(s.profile.value)
    ensures Login(s, sdk, Accepted(u), ReadFailed(reason), signOutO).result.Ok?
    ensures Login(s, sdk, Accepted(u), ReadFailed(reason), signOutO).session.profile == s.profile
  {
  }

  /** Once logged out, nothing of the previous user or profile is left. */
  lemma LoginThenLogout(s: Session, sdk: bool, signIn: SignIn, read: ProfileRead, signOutO: Outcome)
    requires Login(s, sdk, signIn, read, signOutO).result.Ok?
    ensures var after := Logout(Login(s, sdk, signIn, read, signOutO).session, sdk, Done).session;
            after.user.None? && after.profile.None?
  {
  }

  // ---------------------------------------------------------------------------
  // Start-up

  /** `initAuth()`: loading until the provider reports the current user. */
  function InitAuth(s: Session): (r: Session)
    ensures r.loading && r.listening
    ensures r.user == s.user && r.profile == s.profile
  {
    s.(loading := true, listening := true)
  }

  /** The provider's auth-state callback. The first event sets (and loads the profile
      of) the user, or clears user and profile, then ends loading and unsubscribes;
      later events reach no one. */
  function OnAuthEvent(s: Session, signedIn: Option<AuthUser>, read: ProfileRead): (r: Session)
    ensures !s.listening ==> r == s
    ensures s.listening ==> !r.loading && !r.listening && r.user == signedIn
    ensures s.listening && signedIn.None? ==> r.profile.None?
    ensures s.listening && signedIn.Some? ==>
              r.profile == LoadUserProfile(s, signedIn.value.uid, read).profile
  {
    if !s.listening then s
    else
      match signedIn
      case Some(u) => LoadUserProfile(s.(user := Some(u)), u.uid, read).(loading := false, listening := false)
      case None => s.(user := None, profile := None, loading := false, listening := false)
  }

  /** Only the first auth event counts: a second one leaves the session as the first left it. */
  lemma OneShot(s: Session, first: Option<AuthUser>, r1: ProfileRead, second: Option<AuthUser>, r2: ProfileRead)
    ensures var once := OnAuthEvent(InitAuth(s), first, r1);
            OnAuthEvent(once, second, r2) == once && !once.loading
  {
  }
}

=== FILE: clientes.dfy ===
/** Client accounts (`clientes`): profiles live in `users` next to admin profiles and
    are keyed by the uid the auth provider issues for the client's credential. */
module Clientes {
  import opened Docs
  import opened Query

  /** A credential held by the auth provider. */
  datatype Account = Account(email: string, senha: string)

  datatype ClienteInput = ClienteInput(
    email: string,
    senha: string,
    nome: string,
    cpfCnpj: Option<string>,
    endereco: Option<string>,
    telefone: Option<string>)

  /** `value || ''` on an optional text field. */
  function OrEmpty(s: Option<string>): string {
    s.GetOr("")
  }

  /** The profile document `createCliente` writes. */
  function Profile(c: ClienteInput, now: Time): (r: Fields)
    ensures r.Keys == {"email", "nome", "tipo", "cpfCnpj", "endereco", "telefone", "ativo", "criadoEm"}
    ensures "senha" !in r
    ensures r["tipo"] == Str("cliente") && r["ativo"] == Bool(true) && r["criadoEm"] == Stamp(now)
    ensures r["email"] == Str(c.email) && r["nome"] == Str(c.nome)
    ensures r["cpfCnpj"] == Str(if Present(c.cpfCnpj) then c.cpfCnpj.value else "")
    ensures r["endereco"] == Str(if Present(c.endereco) then c.endereco.value else "")
    ensures r["telefone"] == Str(if Present(c.telefone) then c.telefone.value else "")
  {
    map[
      "email" := Str(c.email),
      "nome" := Str(c.nome),
      "tipo" := Str("cliente"),
      "cpfCnpj" := Str(OrEmpty(c.cpfCnpj)),
      "endereco" := Str(OrEmpty(c.endereco)),
      "telefone" := Str(OrEmpty(c.telefone)),
      "ativo" := Bool(true),
      "criadoEm" := Stamp(now)]
  }

  // ---------------------------------------------------------------------------
  // Listing

  /** `fetchClientes` keeps the profiles whose `tipo` is "cliente" (active or not) and
      that have a name to order on. */
  predicate IsCliente(d: Fields) {
    "tipo" in d && d["tipo"] == Str("cliente") && "nome" in d
  }

  ghost predicate IsListing(users: map<Id, Fields>, l: seq<Entry<Fields>>) {
    && (forall e :: e in l <==> Matches(users, IsCliente, e))
    && Distinct(l)
    && Sorted(l, NomeKey, Asc)
  }

  /** `fetchClientes()`. */
  method FetchClientes(users: map<Id, Fields>, o: Outcome) returns (r: Result<seq<Entry<Fields>>>)
    ensures o.Fails? ==> r == Err(Backend(o.reason))
    ensures r.Ok? <==> o.Done?
    ensures r.Ok? ==> IsListing(users, r.value)
  {
    if o.Fails? {
      return Err(Backend(o.reason));
    }
    var found := RunQuery(users, IsCliente, NomeKey, Asc, None);
    r := Ok(found);
  }

  /** Admin profiles never appear in the client list; deactivated clients do. */
  lemma ListingIgnoresAtivo(users: map<Id, Fields>, l: seq<Entry<Fields>>, id: Id)
    requires IsListing(users, l)
    requires id in users && "nome" in users[id]
    ensures (exists e :: e in l && e.id == id) <==> "tipo" in users[id] && users[id]["tipo"] == Str("cliente")
  {
    if "tipo" in users[id] && users[id]["tipo"] == Str("cliente") {
      assert Matches(users, IsCliente, Entry(id, users[id]));
    }
  }

  // ---------------------------------------------------------------------------
  // Store actions

  datatype Store = Store(accounts: map<Id, Account>, users: map<Id, Fields>, cache: seq<Entry<Fields>>)

  method Reload<T>(st: Store, accounts: map<Id, Account>, users: map<Id, Fields>, value: T, fetchO: Outcome)
    returns (st': Store, r: Result<T>)
    ensures st'.accounts == accounts && st'.users == users
    ensures fetchO.Fails? ==> st'.cache == st.cache && r == Err(Backend(fetchO.reason))
    ensures fetchO.Done? ==> r == Ok(value) && IsListing(users, st'.cache)
  {
    var listed := FetchClientes(users, fetchO);
    if listed.Err? {
      return st.(accounts := accounts, users := users), Err(listed.error);
    }
    st' := Store(accounts, users, listed.value);
    r := Ok(value);
  }

  /** `createCliente(data)`: first the credential, whose uid the provider returns, then
      the profile under that same uid, then the refetch. A failed credential step
      writes nothing; a failed profile write leaves the credential behind (no rollback)
      and reports the error. */
  method CreateCliente(st: Store, c: ClienteInput, now: Time, uid: Id, signupO: Outcome, setO: Outcome, fetchO: Outcome)
    returns (st': Store, r: Result<Id>)
    ensures signupO.Fails? ==> st' == st && r == Err(Backend(signupO.reason))
    ensures signupO.Done? ==> st'.accounts == st.accounts[uid := Account(c.email, c.senha)]
    ensures signupO.Done? && setO.Fails? ==>
              && st'.users == st.users && st'.cache == st.cache
              && r == Err(Backend(setO.reason))
              && uid in st'.accounts
    ensures signupO.Done? && setO.Done? ==> st'.users == st.users[uid := Profile(c, now)]
    ensures r.Ok? <==> signupO.Done? && setO.Done? && fetchO.Done?
    ensures r.Ok? ==> r.value == uid && uid in st'.accounts && uid in st'.users && IsListing(st'.users, st'.cache)
    ensures r.Err? ==> st'.cache == st.cache
  {
    if signupO.Fails? {
      return st, Err(Backend(signupO.reason));
    }
    var accounts := st.accounts[uid := Account(c.email, c.senha)];
    if setO.Fails? {
      return st.(accounts := accounts), Err(Backend(setO.reason));
    }
    var users := st.users[uid := Profile(c, now)];
    st', r := Reload(st, accounts, users, uid, fetchO);
  }

  /** `updateCliente(id, data)`: the patch merged over the profile under the same id,
      `atualizadoEm` stamped last. */
  method UpdateCliente(st: Store, id: Id, patch: Fields, now: Time, updO: Outcome, fetchO: Outcome)
    returns (st': Store, r: Result<()>)
    ensures st'.accounts == st.accounts
    ensures updO.Fails? || id !in st.users ==> st' == st && r.Err?
    ensures updO.Done? && id in st.users ==>
              && st'.users.Keys == st.users.Keys
              && Touches(st.users[id], st'.users[id], patch.Keys + {"atualizadoEm"})
              && (forall k :: k in patch && k != "atualizadoEm" ==> st'.users[id][k] == patch[k])
              && st'.users[id]["atualizadoEm"] == Stamp(now)
              && forall other :: other in st.users && other != id ==> st'.users[other] == st.users[other]
    ensures r.Ok? <==> updO.Done? && id in st.users && fetchO.Done?
    ensures r.Ok? ==> IsListing(st'.users, st'.cache)
    ensures r.Err? ==> st'.cache == st.cache
  {
    var written := UpdateDoc(st.users, id, patch["atualizadoEm" := Stamp(now)], updO);
    if written.Err? {
      return st, Err(written.error);
    }
    st', r := Reload(st, st.accounts, written.value, (), fetchO);
  }

  /** `toggleClienteStatus(id, ativo)`: only `ativo` and `atualizadoEm` change. */
  method ToggleClienteStatus(st: Store, id: Id, ativo: bool, now: Time, updO: Outcome, fetchO: Outcome)
    returns (st': Store, r: Result<()>)
    ensures st'.accounts == st.accounts
    ensures updO.Fails? || id !in st.users ==> st' == st && r.Err?
    ensures updO.Done? && id in st.users ==>
              && st'.users.Keys == st.users.Keys
              && Touches(st.users[id], st'.users[id], {"ativo", "atualizadoEm"})
              && st'.users[id]["ativo"] == Bool(ativo)
              && st'.users[id]["atualizadoEm"] == Stamp(now)
              && forall other :: other in st.users && other != id ==> st'.users[other] == st.users[other]
    ensures r.Ok? <==> updO.Done? && id in st.users && fetchO.Done?
    ensures r.Ok? ==> IsListing(st'.users, st'.cache)
    ensures r.Err? ==> st'.cache == st.cache
  {
    var written := UpdateDoc(st.users, id, map["ativo" := Bool(ativo), "atualizadoEm" := Stamp(now)], updO);
    if written.Err? {
      return st, Err(written.error);
    }
    st', r := Reload(st, st.accounts, written.value, (), fetchO);
  }

  /** Every profile has a credential. A profile-write failure keeps this and breaks only
      the converse. */
  ghost predicate ProfilesHaveAccounts(st: Store) {
    forall id :: id in st.users ==> id in st.accounts
  }

  /** Credentials and profiles pair up one to one. */
  ghost predicate Paired(st: Store) {
    st.users.Keys == st.accounts.Keys
  }

  /** A complete creation keeps accounts and profiles paired; a profile-write failure
      leaves a credential with no profile, though every profile still has a credential. */
  lemma CreationPairing(st: Store, c: ClienteInput, now: Time, uid: Id)
    requires Paired(st)
    ensures Paired(st.(accounts := st.accounts[uid := Account(c.email, c.senha)], users := st.users[uid := Profile(c, now)]))
    ensures uid !in st.users ==> !Paired(st.(accounts := st.accounts[uid := Account(c.email, c.senha)]))
    ensures ProfilesHaveAccounts(st.(accounts := st.accounts[uid := Account(c.email, c.senha)]))
  {
  }
}

=== FILE: coletas.dfy ===
/** The collections store (`coletas`): building a collection record from the
    collector's input, marking the request it fulfils, the payment status, the
    filtered listing, and the per-material totals over the cached list. */
module Coletas {
  import opened Docs
  import opened Ordering
  import opened Query

  /** The container descriptor as the caller supplies it. */
  datatype RecipienteInput = RecipienteInput(tipo: string, localizacao: string, extra: Fields)

  /** The container descriptor as stored: only its type and location are kept. */
  datatype Recipiente = Recipiente(tipo: string, localizacao: string)

  /** One material line. Weights and prices are exact reals; `extra` holds any further
      fields the caller put on the line, which are stored as given. The typed fields take
      precedence over a key of the same name in `extra`, as the computed `pesoLiquido`
      and `valorTotal` override the caller's spread. */
  datatype Line = Line(
    nomeMaterial: string,
    pesoBruto: real,
    pesoRecipiente: real,
    precoUnitario: real,
    pesoLiquido: real,
    valorTotal: real,
    extra: Fields)

  datatype ColetaInput = ColetaInput(
    clienteId: Id,
    coletorId: Id,
    dataColeta: Option<Time>,
    recipiente: RecipienteInput,
    materiais: seq<Line>,
    solicitacaoId: Option<Id>)

  datatype Coleta = Coleta(
    clienteId: Id,
    coletorId: Id,
    dataColeta: Time,
    recipiente: Recipiente,
    materiais: seq<Line>,
    valorTotalColeta: real,
    statusPagamento: string,
    createdAt: Time,
    dataPagamento: Option<Time>,
    updatedAt: Option<Time>)

  // ---------------------------------------------------------------------------
  // Line arithmetic

  /** The derived fields of a line agree with its raw weights and unit price. */
  predicate Consistent(l: Line) {
    && l.pesoLiquido == l.pesoBruto - l.pesoRecipiente
    && l.valorTotal == l.pesoLiquido * l.precoUnitario
  }

  /** Two lines agree on everything the caller controls: all but the derived fields. */
  predicate SameInput(a: Line, b: Line) {
    a.(pesoLiquido := 0.0, valorTotal := 0.0) == b.(pesoLiquido := 0.0, valorTotal := 0.0)
  }

  /** Recomputes a line's net weight and total, whatever the caller supplied for them. */
  function ComputeLine(m: Line): (r: Line)
    ensures Consistent(r)
    ensures SameInput(r, m)
  {
    var liquido := m.pesoBruto - m.pesoRecipiente;
    m.(pesoLiquido := liquido, valorTotal := liquido * m.precoUnitario)
  }

  /** The recomputed line is the only consistent line with the caller's raw fields,
      so caller-supplied derived values never survive, and a consistent line is left
      as it is. */
  lemma ComputeLineUnique(m: Line, l: Line)
    ensures Consistent(l) && SameInput(l, m) <==> l == ComputeLine(m)
    ensures Consistent(m) <==> ComputeLine(m) == m
  {
    if Consistent(l) && SameInput(l, m) {
      assert l.pesoBruto == m.pesoBruto && l.pesoRecipiente == m.pesoRecipiente;
      assert l.precoUnitario == m.precoUnitario && l.extra == m.extra;
    }
  }

  /** The stored lines: same order and same caller fields, each one recomputed. */
  function ComputeLines(ms: seq<Line>): (r: seq<Line>)
    ensures |r| == |ms|
    ensures forall i :: 0 <= i < |ms| ==> Consistent(r[i]) && SameInput(r[i], ms[i])
  {
    seq(|ms|, i requires 0 <= i < |ms| => ComputeLine(ms[i]))
  }

  /** The line totals summed the way `reduce` does: left to right from 0. */
  function SumValor(ls: seq<Line>): real
    decreases |ls|
  {
    if |ls| == 0 then 0.0 else SumValor(ls[..|ls| - 1]) + ls[|ls| - 1].valorTotal
  }

  /** Net weights summed left to right from 0. */
  function SumPeso(ls: seq<Line>): real
    decreases |ls|
  {
    if |ls| == 0 then 0.0 else SumPeso(ls[..|ls| - 1]) + ls[|ls| - 1].pesoLiquido
  }

  /** Reference total taken straight from the caller's raw weights and prices. */
  function RawTotal(ms: seq<Line>): real
    decreases |ms|
  {
    if |ms| == 0 then 0.0
    else (ms[0].pesoBruto - ms[0].pesoRecipiente) * ms[0].precoUnitario + RawTotal(ms[1..])
  }

  lemma {:induction false} SumValorAppend(a: seq<Line>, b: seq<Line>)
    ensures SumValor(a + b) == SumValor(a) + SumValor(b)
    decreases |b|
  {
    if |b| == 0 {
      assert a + b == a;
    } else {
      SumValorAppend(a, b[..|b| - 1]);
      assert (a + b)[..|a + b| - 1] == a + b[..|b| - 1];
      assert (a + b)[|a + b| - 1] == b[|b| - 1];
    }
  }

  /** The total of the recomputed lines is the reference total of the raw input. */
  lemma {:induction false} ComputedTotalIsRawTotal(ms: seq<Line>)
    ensures SumValor(ComputeLines(ms)) == RawTotal(ms)
    decreases |ms|
  {
    if |ms| > 0 {
      ComputedTotalIsRawTotal(ms[1..]);
      var ls := ComputeLines(ms);
      var tail := ComputeLines(ms[1..]);
      assert ls == [ls[0]] + tail;
      SumValorAppend([ls[0]], tail);
      assert [ls[0]][..0] == [];
    }
  }

  // ---------------------------------------------------------------------------
  // Records

  /** Every line is consistent and the record's total is the sum of its lines. */
  predicate WellFormed(c: Coleta) {
    && (forall i :: 0 <= i < |c.materiais| ==> Consistent(c.materiais[i]))
    && c.valorTotalColeta == SumValor(c.materiais)
  }

  /** The record `createColeta` writes for an input; `now` is the clock reading. */
  function BuildColeta(c: ColetaInput, now: Time): (r: Coleta)
    ensures WellFormed(r)
    ensures r.valorTotalColeta == RawTotal(c.materiais)
    ensures |c.materiais| == 0 ==> r.valorTotalColeta == 0.0
    ensures |r.materiais| == |c.materiais|
    ensures forall i :: 0 <= i < |c.materiais| ==> SameInput(r.materiais[i], c.materiais[i])
    ensures r.statusPagamento == "pendente"
    ensures c.dataColeta.Some? ==> r.dataColeta == c.dataColeta.value
    ensures c.dataColeta.None? ==> r.dataColeta == now
    ensures r.clienteId == c.clienteId && r.coletorId == c.coletorId
    ensures r.recipiente.tipo == c.recipiente.tipo && r.recipiente.localizacao == c.recipiente.localizacao
    ensures r.createdAt == now && r.dataPagamento.None? && r.updatedAt.None?
  {
    var materiais := ComputeLines(c.materiais);
    ComputedTotalIsRawTotal(c.materiais);
    Coleta(
      c.clienteId,
      c.coletorId,
      c.dataColeta.GetOr(now),
      Recipiente(c.recipiente.tipo, c.recipiente.localizacao),
      materiais,
      SumValor(materiais),
      "pendente",
      now,
      None,
      None)
  }

  /** `updateStatusPagamento` on one record: the payment date is set exactly when the
      new status is "pago"; the lines and total are untouched. */
  function SetStatusPagamento(c: Coleta, status: string, now: Time): (r: Coleta)
    ensures r.statusPagamento == status
    ensures r.dataPagamento.Some? <==> status == "pago"
    ensures r.dataPagamento.Some? ==> r.dataPagamento.value == now
    ensures r.updatedAt == Some(now)
    ensures r.(statusPagamento := c.statusPagamento, dataPagamento := c.dataPagamento, updatedAt := c.updatedAt) == c
    ensures WellFormed(c) ==> WellFormed(r)
  {
    c.(statusPagamento := status,
       dataPagamento := if status == "pago" then Some(now) else None,
       updatedAt := Some(now))
  }

  // ---------------------------------------------------------------------------
  // Listing

  datatype Filtros = Filtros(clienteId: Option<Id>, dataInicio: Option<Time>, dataFim: Option<Time>, limit: Option<int>)

  const NoFilters := Filtros(None, None, None, None)

  /** The client filter applies when a non-empty id is given; the date range only when
      both bounds are given, and then inclusively. */
  predicate Keeps(f: Filtros, c: Coleta) {
    && (Present(f.clienteId) ==> c.clienteId == f.clienteId.value)
    && (f.dataInicio.Some? && f.dataFim.Some? ==> f.dataInicio.value <= c.dataColeta <= f.dataFim.value)
  }

  /** A limit of 0 (falsy) means no limit. */
  function EffectiveLimit(f: Filtros): Option<nat> {
    if f.limit.Some? && f.limit.value > 0 then Some(f.limit.value) else None
  }

  function DateKey(c: Coleta): Value {
    Stamp(c.dataColeta)
  }

  ghost predicate NewestFirst(s: seq<Entry<Coleta>>) {
    forall i, j :: 0 <= i < j < |s| ==> s[i].doc.dataColeta >= s[j].doc.dataColeta
  }

  /** The cached list after a refetch: every record once, newest first. */
  ghost predicate IsListing(coletas: map<Id, Coleta>, l: seq<Entry<Coleta>>) {
    && (forall e :: e in l <==> e.id in coletas && coletas[e.id] == e.doc)
    && Distinct(l)
    && NewestFirst(l)
  }

  lemma SortedByDateIsNewestFirst(s: seq<Entry<Coleta>>)
    requires Sorted(s, DateKey, Desc)
    ensures NewestFirst(s)
  {
    forall i, j | 0 <= i < j < |s|
      ensures s[i].doc.dataColeta >= s[j].doc.dataColeta
    {
      assert Before(s[i], s[j], DateKey, Desc);
      ValueLeOnStamps(s[j].doc.dataColeta, s[i].doc.dataColeta);
    }
  }

  /** `fetchColetas(filtros)`: a negative limit is refused when the query is built;
      otherwise, when the read succeeds, the records meeting every filter, newest first,
      cut to the limit (keeping the newest) when one is given. */
  method FetchColetas(coletas: map<Id, Coleta>, f: Filtros, o: Outcome) returns (r: Result<seq<Entry<Coleta>>>)
    ensures f.limit.Some? && f.limit.value < 0 ==> r == Err(InvalidLimit(f.limit.value))
    ensures r.Ok? <==> o.Done? && !(f.limit.Some? && f.limit.value < 0)
    ensures r.Ok? ==> forall e :: e in r.value ==> e.id in coletas && coletas[e.id] == e.doc && Keeps(f, e.doc)
    ensures r.Ok? ==> Distinct(r.value) && NewestFirst(r.value)
    ensures r.Ok? && EffectiveLimit(f).None? ==>
              forall id :: id in coletas && Keeps(f, coletas[id]) ==> Entry(id, coletas[id]) in r.value
    ensures r.Ok? && EffectiveLimit(f).Some? ==> |r.value| <= f.limit.value
    ensures r.Ok? && EffectiveLimit(f).Some? ==>
              forall id :: id in coletas && Keeps(f, coletas[id]) && Entry(id, coletas[id]) !in r.value ==>
                && |r.value| == f.limit.value
                && forall x :: x in r.value ==> x.doc.dataColeta >= coletas[id].dataColeta
  {
    if f.limit.Some? && f.limit.value < 0 {
      return Err(InvalidLimit(f.limit.value));
    }
    if o.Fails? {
      return Err(Backend(o.reason));
    }
    var keep := (c: Coleta) => Keeps(f, c);
    var found := RunQuery(coletas, keep, DateKey, Desc, EffectiveLimit(f));
    SortedByDateIsNewestFirst(found);
    forall id | id in coletas && Keeps(f, coletas[id])
      ensures Matches(coletas, keep, Entry(id, coletas[id]))
    {
    }
    if EffectiveLimit(f).Some? {
      forall id, x | id in coletas && Keeps(f, coletas[id]) && Entry(id, coletas[id]) !in found && x in found
        ensures x.doc.dataColeta >= coletas[id].dataColeta
      {
        assert Before(x, Entry(id, coletas[id]), DateKey, Desc);
        ValueLeOnStamps(coletas[id].dataColeta, x.doc.dataColeta);
      }
    }
    r := Ok(found);
  }

  // ---------------------------------------------------------------------------
  // Store actions

  /** The documents the store touches and its cached list. */
  datatype Store = Store(coletas: map<Id, Coleta>, solicitacoes: map<Id, Fields>, cache: seq<Entry<Coleta>>)

  /** The fields `createColeta` writes on the request it fulfils. */
  function ConclusionPatch(coletaId: Id, now: Time): Fields {
    map["status" := Str("concluida"), "dataConclusao" := Stamp(now), "coletaId" := Str(coletaId)]
  }

  /** Refetches the unfiltered list after a successful write; a failed refetch keeps
      the write and the old cache and reports the error. */
  method Reload<T>(st: Store, coletas: map<Id, Coleta>, solicitacoes: map<Id, Fields>, value: T, fetchO: Outcome)
    returns (st': Store, r: Result<T>)
    ensures st'.coletas == coletas && st'.solicitacoes == solicitacoes
    ensures fetchO.Fails? ==> st'.cache == st.cache && r == Err(Backend(fetchO.reason))
    ensures fetchO.Done? ==> r == Ok(value) && IsListing(coletas, st'.cache)
  {
    if fetchO.Fails? {
      return st.(coletas := coletas, solicitacoes := solicitacoes), Err(Backend(fetchO.reason));
    }
    var listed := FetchColetas(coletas, NoFilters, fetchO);
    st' := Store(coletas, solicitacoes, listed.value);
    r := Ok(value);
  }

  /** `createColeta`: stores the built record under the provider's new id, then, when a
      request id is given, marks that request concluded and linked to the new record,
      then refetches. A failure after the record is stored leaves it stored. */
  method CreateColeta(st: Store, c: ColetaInput, now: Time, newId: Id, addO: Outcome, linkO: Outcome, fetchO: Outcome)
    returns (st': Store, r: Result<Id>)
    ensures addO.Fails? ==> st' == st && r == Err(Backend(addO.reason))
    ensures addO.Done? ==> st'.coletas == st.coletas[newId := BuildColeta(c, now)]
    ensures addO.Done? ==> WellFormed(st'.coletas[newId]) && st'.coletas[newId].statusPagamento == "pendente"
    ensures !Present(c.solicitacaoId) ==> st'.solicitacoes == st.solicitacoes
    ensures addO.Done? && Present(c.solicitacaoId) && linkO.Done? && c.solicitacaoId.value in st.solicitacoes ==>
              var sid := c.solicitacaoId.value;
              && st'.solicitacoes.Keys == st.solicitacoes.Keys
              && sid in st'.solicitacoes
              && Touches(st.solicitacoes[sid], st'.solicitacoes[sid], {"status", "dataConclusao", "coletaId"})
              && st'.solicitacoes[sid]["status"] == Str("concluida")
              && st'.solicitacoes[sid]["dataConclusao"] == Stamp(now)
              && st'.solicitacoes[sid]["coletaId"] == Str(newId)
              && forall other :: other in st.solicitacoes && other != sid ==>
                   other in st'.solicitacoes && st'.solicitacoes[other] == st.solicitacoes[other]
    ensures addO.Done? && Present(c.solicitacaoId) && !(linkO.Done? && c.solicitacaoId.value in st.solicitacoes) ==>
              st'.solicitacoes == st.solicitacoes && st'.cache == st.cache && r.Err?
    ensures r.Ok? ==> r.value == newId && IsListing(st'.coletas, st'.cache)
    ensures r.Err? ==> st'.cache == st.cache
    ensures r.Ok? <==>
              && addO.Done? && fetchO.Done?
              && (Present(c.solicitacaoId) ==> linkO.Done? && c.solicitacaoId.value in st.solicitacoes)
  {
    if addO.Fails? {
      return st, Err(Backend(addO.reason));
    }
    var coletas := st.coletas[newId := BuildColeta(c, now)];
    var solicitacoes := st.solicitacoes;
    if Present(c.solicitacaoId) {
      var linked := UpdateDoc(st.solicitacoes, c.solicitacaoId.value, ConclusionPatch(newId, now), linkO);
      if linked.Err? {
        return st.(coletas := coletas), Err(linked.error);
      }
      solicitacoes := linked.value;
    }
    st', r := Reload(st, coletas, solicitacoes, newId, fetchO);
  }

  /** `updateStatusPagamento(id, status)` followed by the refetch. */
  method UpdateStatusPagamento(st: Store, id: Id, status: string, now: Time, updO: Outcome, fetchO: Outcome)
    returns (st': Store, r: Result<()>)
    ensures updO.Fails? || id !in st.coletas ==> st' == st && r.Err?
    ensures updO.Done? && id in st.coletas ==>
              st'.coletas == st.coletas[id := SetStatusPagamento(st.coletas[id], status, now)]
    ensures st'.solicitacoes == st.solicitacoes
    ensures r.Ok? <==> updO.Done? && id in st.coletas && fetchO.Done?
    ensures r.Ok? ==> IsListing(st'.coletas, st'.cache)
    ensures r.Err? ==> st'.cache == st.cache
  {
    if updO.Fails? {
      return st, Err(Backend(updO.reason));
    }
    if id !in st.coletas {
      return st, Err(NotFound(id));
    }
    var coletas := st.coletas[id := SetStatusPagamento(st.coletas[id], status, now)];
    st', r := Reload(st, coletas, st.solicitacoes, (), fetchO);
  }

  ghost predicate AllWellFormed(coletas: map<Id, Coleta>) {
    forall id :: id in coletas ==> WellFormed(coletas[id])
  }

  /** Every record the two actions leave behind is well formed, given that the records
      already stored were: stored totals always agree with their lines. */
  lemma ActionsKeepWellFormed(coletas: map<Id, Coleta>, c: ColetaInput, newId: Id, id: Id, status: string, now: Time)
    requires AllWellFormed(coletas)
    ensures AllWellFormed(coletas[newId := BuildColeta(c, now)])
    ensures id in coletas ==> AllWellFormed(coletas[id := SetStatusPagamento(coletas[id], status, now)])
  {
  }

  // ---------------------------------------------------------------------------
  // Totals by material

  datatype Totals = Totals(peso: real, valor: real, quantidade: nat)

  /** All lines of the cached records, record by record, line by line. */
  function Lines(cs: seq<Entry<Coleta>>): seq<Line>
    decreases |cs|
  {
    if |cs| == 0 then [] else cs[0].doc.materiais + Lines(cs[1..])
  }

  /** Adds one line to its material's running totals, opening them at zero. */
  function AddLine(t: map<string, Totals>, l: Line): map<string, Totals> {
    var cur := if l.nomeMaterial in t then t[l.nomeMaterial] else Totals(0.0, 0.0, 0);
    t[l.nomeMaterial := Totals(cur.peso + l.pesoLiquido, cur.valor + l.valorTotal, cur.quantidade + 1)]
  }

  function Group(ls: seq<Line>): map<string, Totals>
    decreases |ls|
  {
    if |ls| == 0 then map[] else AddLine(Group(ls[..|ls| - 1]), ls[|ls| - 1])
  }

  /** The computed `totalPorMaterial` over the cached list. */
  function TotalPorMaterial(cache: seq<Entry<Coleta>>): map<string, Totals> {
    Group(Lines(cache))
  }

  /** The lines of one material, in order. */
  function Of(ls: seq<Line>, nome: string): (r: seq<Line>)
    decreases |ls|
  {
    if |ls| == 0 then []
    else Of(ls[..|ls| - 1], nome) + (if ls[|ls| - 1].nomeMaterial == nome then [ls[|ls| - 1]] else [])
  }

  /** A material has an entry exactly when it has lines, and the entry holds the sums
      of those lines' net weights and totals and their count. */
  lemma {:induction false} GroupMatchesOf(ls: seq<Line>, nome: string)
    ensures nome in Group(ls) <==> |Of(ls, nome)| > 0
    ensures nome in Group(ls) ==>
              Group(ls)[nome] == Totals(SumPeso(Of(ls, nome)), SumValor(Of(ls, nome)), |Of(ls, nome)|)
    decreases |ls|
  {
    if |ls| > 0 {
      var init, last := ls[..|ls| - 1], ls[|ls| - 1];
      GroupMatchesOf(init, nome);
      var o := Of(init, nome);
      if last.nomeMaterial == nome {
        var o' := o + [last];
        assert Of(ls, nome) == o';
        assert o'[..|o'| - 1] == o;
        if nome !in Group(init) {
          assert o == [];
        }
      } else {
        assert Of(ls, nome) == o;
      }
    }
  }

  lemma {:induction false} OfNonEmpty(ls: seq<Line>, nome: string)
    ensures |Of(ls, nome)| > 0 <==> exists i :: 0 <= i < |ls| && ls[i].nomeMaterial == nome
    decreases |ls|
  {
    if |ls| > 0 {
      var init := ls[..|ls| - 1];
      OfNonEmpty(init, nome);
      if exists i :: 0 <= i < |init| && init[i].nomeMaterial == nome {
        var i :| 0 <= i < |init| && init[i].nomeMaterial == nome;
        assert ls[i] == init[i];
      }
      if exists i :: 0 <= i < |ls| && ls[i].nomeMaterial == nome {
        var i :| 0 <= i < |ls| && ls[i].nomeMaterial == nome;
        if i < |init| {
          assert init[i] == ls[i];
        }
      }
    }
  }

  /** Each material that occurs maps to the sums of its lines' net weights and totals
      and to its line count; a material that never occurs has no entry. */
  lemma GroupIsPerMaterialSum(ls: seq<Line>, nome: string)
    ensures nome in Group(ls) <==> exists i :: 0 <= i < |ls| && ls[i].nomeMaterial == nome
    ensures nome in Group(ls) ==>
              Group(ls)[nome] == Totals(SumPeso(Of(ls, nome)), SumValor(Of(ls, nome)), |Of(ls, nome)|)
  {
    GroupMatchesOf(ls, nome);
    OfNonEmpty(ls, nome);
  }

  /** The counts of all materials add up to the number of lines. */
  ghost function CountAll(t: map<string, Totals>): nat
    decreases |t|
  {
    if |t| == 0 then 0
    else
      var k :| k in t;
      t[k].quantidade + CountAll(t - {k})
  }

  /** The key `CountAll` takes apart first. */
  lemma CountAllChoice(t: map<string, Totals>) returns (k: string)
    requires |t| > 0
    ensures k in t && CountAll(t) == t[k].quantidade + CountAll(t - {k})
  {
    k :| k in t && CountAll(t) == t[k].quantidade + CountAll(t - {k});
  }

  lemma MapRemoveSize<K, V>(t: map<K, V>, k: K)
    requires k in t
    ensures |t - {k}| == |t| - 1
  {
    assert (t - {k}).Keys == t.Keys - {k};
  }

  lemma {:induction false} CountAllRemove(t: map<string, Totals>, k: string)
    requires k in t
    ensures CountAll(t) == t[k].quantidade + CountAll(t - {k})
    decreases |t|
  {
    var k' := CountAllChoice(t);
    if k' != k {
      var without := t - {k'} - {k};
      assert |t - {k'}| < |t| by { MapRemoveSize(t, k'); }
      assert |t - {k}| < |t| by { MapRemoveSize(t, k); }
      CountAllRemove(t - {k'}, k);
      CountAllRemove(t - {k}, k');
      assert t - {k} - {k'} == without;
    }
  }

  lemma {:induction false} GroupCountsEveryLine(ls: seq<Line>)
    ensures CountAll(Group(ls)) == |ls|
    decreases |ls|
  {
    if |ls| > 0 {
      var g := Group(ls[..|ls| - 1]);
      var l := ls[|ls| - 1];
      GroupCountsEveryLine(ls[..|ls| - 1]);
      var g' := AddLine(g, l);
      CountAllRemove(g', l.nomeMaterial);
      assert g' - {l.nomeMaterial} == g - {l.nomeMaterial};
      if l.nomeMaterial in g {
        CountAllRemove(g, l.nomeMaterial);
      } else {
        assert g - {l.nomeMaterial} == g;
      }
    }
  }

  /** Over the cached list: the counts add up to the number of lines of all records. */
  lemma TotalPorMaterialCounts(cache: seq<Entry<Coleta>>)
    ensures CountAll(TotalPorMaterial(cache)) == |Lines(cache)|
  {
    GroupCountsEveryLine(Lines(cache));
  }
}

=== FILE: docs.dfy ===
/** The document store the dashboard talks to, reduced to what the stores rely on:
    collections are maps from document id to a field map, every remote call either
    completes or is rejected by the provider, and `updateDoc` merges a patch into an
    existing document. */
module Docs {

  type Id = string

  /** A clock reading (`Timestamp.now()` / `new Date()`), in provider ticks. */
  type Time = int

  datatype Option<+T> = None | Some(value: T) {
    function GetOr(default: T): T {
      match this
      case Some(v) => v
      case None => default
    }
  }

  /** A field value as the backend stores it. `NaN` is what `parseFloat` yields for
      text that is not a number. */
  datatype Value =
    | Null
    | Bool(b: bool)
    | NaN
    | Num(n: real)
    | Stamp(t: Time)
    | Str(s: string)
    | Arr(items: seq<Value>)
    | Obj(fields: map<string, Value>)

  /** The fields of one document. */
  type Fields = map<string, Value>

  /** A document as a query returns it: its id next to its data. */
  datatype Entry<D> = Entry(id: Id, doc: D)

  datatype Error =
    | Backend(reason: string)   // the provider rejected a call
    | NotFound(id: Id)          // `updateDoc` on a document that does not exist
    | InvalidLimit(n: int)      // a query limit the provider refuses
    | ProfileMissing            // signed in, but no profile document
    | AccessDenied(tipo: Option<Value>)  // signed in with a profile that is not an admin

  datatype Result<+T> = Ok(value: T) | Err(error: Error)

  /** What the provider did with one remote call. */
  datatype Outcome = Done | Fails(reason: string)

  /** JavaScript truthiness of an optional text argument: absent and "" are both false. */
  predicate Present(s: Option<string>) {
    s.Some? && s.value != ""
  }

  /** `after` differs from `before` at most in the fields `keys`, and holds every one of them. */
  ghost predicate Touches(before: Fields, after: Fields, keys: set<string>) {
    && after.Keys == before.Keys + keys
    && forall k :: k in before && k !in keys ==> after[k] == before[k]
  }

  /** `updateDoc(doc(coll, id), patch)`: rejected when the provider fails or the document
      does not exist; otherwise the patch's fields replace or extend that document and
      nothing else in the collection changes. */
  function UpdateDoc(coll: map<Id, Fields>, id: Id, patch: Fields, o: Outcome): (r: Result<map<Id, Fields>>)
    ensures r.Ok? <==> o.Done? && id in coll
    ensures o.Fails? ==> r == Err(Backend(o.reason))
    ensures r.Ok? ==> r.value.Keys == coll.Keys
    ensures r.Ok? ==> Touches(coll[id], r.value[id], patch.Keys)
    ensures r.Ok? ==> forall k :: k in patch ==> r.value[id][k] == patch[k]
    ensures r.Ok? ==> forall other :: other in coll && other != id ==> r.value[other] == coll[other]
  {
    if o.Fails? then Err(Backend(o.reason))
    else if id !in coll then Err(NotFound(id))
    else Ok(coll[id := coll[id] + patch])
  }
}

=== FILE: materiais.dfy ===
/** The material catalog (`materiais`): creation with defaults, soft delete, per-client
    price overrides, merge updates, the active-only listing by name, and one-shot
    seeding from the default catalog. */
module Materiais {
  import opened Docs
  import opened Ordering
  import opened Query

  /** The default catalog, in the order it is seeded. */
  const MateriaisPadrao: seq<string> := [
    "Cavaco de ferro",
    "Cavaco de alumínio",
    "Cavaco de inox",
    "Cavaco de cobre",
    "Cavaco de bronze",
    "Cavaco de latão",
    "Bucha de bronze",
    "Pedaço de inox",
    "Pedaço de alumínio",
    "Sucata miúda",
    "Sucata pesada",
    "Oxicorte",
    "Estamparia"
  ]

  /** What `parseFloat` makes of a price argument. */
  datatype Parsed = NotANumber | Number(x: real)

  /** `parseFloat(p) || 0`: NaN and 0 both become 0. */
  function PriceOrZero(p: Parsed): real {
    if p.Number? && p.x != 0.0 then p.x else 0.0
  }

  /** A parsed price stored as is, NaN included. */
  function ParsedValue(p: Parsed): Value {
    match p
    case NotANumber => NaN
    case Number(x) => Num(x)
  }

  /** The per-client price map of a material; a missing or non-map field reads as empty. */
  function Overrides(d: Fields): map<string, Value> {
    if "precosPersonalizados" in d && d["precosPersonalizados"].Obj? then d["precosPersonalizados"].fields else map[]
  }

  /** The shape every catalog entry has when it is created. */
  predicate Catalogued(d: Fields) {
    && "nome" in d && d["nome"].Str?
    && "precoPadrao" in d && d["precoPadrao"].Num?
    && "precosPersonalizados" in d && d["precosPersonalizados"].Obj?
    && "active" in d && d["active"].Bool?
  }

  /** The document `createMaterial` adds. */
  function NewMaterial(nome: string, preco: Parsed, now: Time): (r: Fields)
    ensures Catalogued(r) && Listed(r)
    ensures r["nome"] == Str(nome)
    ensures r["precoPadrao"] == Num(PriceOrZero(preco))
    ensures preco == NotANumber ==> r["precoPadrao"] == Num(0.0)
    ensures Overrides(r) == map[]
    ensures r.Keys == {"nome", "precoPadrao", "precosPersonalizados", "active", "createdAt"}
  {
    map[
      "nome" := Str(nome),
      "precoPadrao" := Num(PriceOrZero(preco)),
      "precosPersonalizados" := Obj(map[]),
      "active" := Bool(true),
      "createdAt" := Stamp(now)]
  }

  // ---------------------------------------------------------------------------
  // Listing

  /** The listing keeps documents whose `active` is exactly true and that have a name
      to order on. */
  predicate Listed(d: Fields) {
    "active" in d && d["active"] == Bool(true) && "nome" in d
  }

  /** The cached list after a refetch: the listed documents, each once, by name. */
  ghost predicate IsListing(docs: map<Id, Fields>, l: seq<Entry<Fields>>) {
    && (forall e :: e in l <==> Matches(docs, Listed, e))
    && Distinct(l)
    && Sorted(l, NomeKey, Asc)
  }

  /** `fetchMateriais()`. */
  method FetchMateriais(docs: map<Id, Fields>, o: Outcome) returns (r: Result<seq<Entry<Fields>>>)
    ensures o.Fails? ==> r == Err(Backend(o.reason))
    ensures r.Ok? <==> o.Done?
    ensures r.Ok? ==> IsListing(docs, r.value)
  {
    if o.Fails? {
      return Err(Backend(o.reason));
    }
    var found := RunQuery(docs, Listed, NomeKey, Asc, None);
    r := Ok(found);
  }

  /** A listing holds exactly the active documents, and nothing soft-deleted. */
  lemma ListingIsActiveOnly(docs: map<Id, Fields>, l: seq<Entry<Fields>>, id: Id)
    requires IsListing(docs, l)
    requires id in docs && "nome" in docs[id]
    ensures (exists e :: e in l && e.id == id) <==> "active" in docs[id] && docs[id]["active"] == Bool(true)
  {
    if "active" in docs[id] && docs[id]["active"] == Bool(true) {
      assert Matches(docs, Listed, Entry(id, docs[id]));
    }
  }

  /** Among names that are strings, the listing is in lexicographic order. */
  lemma ListingByName(docs: map<Id, Fields>, l: seq<Entry<Fields>>, i: int, j: int)
    requires IsListing(docs, l)
    requires 0 <= i < j < |l|
    requires "nome" in l[i].doc && l[i].doc["nome"].Str? && "nome" in l[j].doc && l[j].doc["nome"].Str?
    ensures StrLe(l[i].doc["nome"].s, l[j].doc["nome"].s)
  {
    assert Before(l[i], l[j], NomeKey, Asc);
    assert NomeKey(l[i].doc) == l[i].doc["nome"] && NomeKey(l[j].doc) == l[j].doc["nome"];
  }

  // ---------------------------------------------------------------------------
  // Store actions

  datatype Store = Store(docs: map<Id, Fields>, cache: seq<Entry<Fields>>)

  /** Refetches after a successful write; a failed refetch keeps the write and the old
      cache and reports the error. */
  method Reload<T>(st: Store, docs: map<Id, Fields>, value: T, fetchO: Outcome) returns (st': Store, r: Result<T>)
    ensures st'.docs == docs
    ensures fetchO.Fails? ==> st'.cache == st.cache && r == Err(Backend(fetchO.reason))
    ensures fetchO.Done? ==> r == Ok(value) && IsListing(docs, st'.cache)
  {
    var listed := FetchMateriais(docs, fetchO);
    if listed.Err? {
      return st.(docs := docs), Err(listed.error);
    }
    st' := Store(docs, listed.value);
    r := Ok(value);
  }

  /** `createMaterial({nome, precoPadrao})` under the provider's new id. */
  method CreateMaterial(st: Store, nome: string, preco: Parsed, now: Time, newId: Id, addO: Outcome, fetchO: Outcome)
    returns (st': Store, r: Result<Id>)
    ensures addO.Fails? ==> st' == st && r == Err(Backend(addO.reason))
    ensures addO.Done? ==> st'.docs == st.docs[newId := NewMaterial(nome, preco, now)]
    ensures r.Ok? <==> addO.Done? && fetchO.Done?
    ensures r.Ok? ==> r.value == newId && IsListing(st'.docs, st'.cache)
    ensures r.Ok? ==> Entry(newId, NewMaterial(nome, preco, now)) in st'.cache
    ensures r.Err? ==> st'.cache == st.cache
  {
    if addO.Fails? {
      return st, Err(Backend(addO.reason));
    }
    var docs := st.docs[newId := NewMaterial(nome, preco, now)];
    st', r := Reload(st, docs, newId, fetchO);
    if r.Ok? {
      assert Matches(docs, Listed, Entry(newId, NewMaterial(nome, preco, now)));
    }
  }

  /** `updateMaterial(id, data)`: the patch's fields win over the stored ones, the
      others are kept, and `updatedAt` is stamped last so it wins over the patch. */
  method UpdateMaterial(st: Store, id: Id, patch: Fields, now: Time, updO: Outcome, fetchO: Outcome)
    returns (st': Store, r: Result<()>)
    ensures updO.Fails? || id !in st.docs ==> st' == st && r.Err?
    ensures updO.Done? && id in st.docs ==>
              && st'.docs.Keys == st.docs.Keys
              && Touches(st.docs[id], st'.docs[id], patch.Keys + {"updatedAt"})
              && (forall k :: k in patch && k != "updatedAt" ==> st'.docs[id][k] == patch[k])
              && st'.docs[id]["updatedAt"] == Stamp(now)
              && forall other :: other in st.docs && other != id ==> st'.docs[other] == st.docs[other]
    ensures r.Ok? <==> updO.Done? && id in st.docs && fetchO.Done?
    ensures r.Ok? ==> IsListing(st'.docs, st'.cache)
    ensures r.Err? ==> st'.cache == st.cache
  {
    var written := UpdateDoc(st.docs, id, patch["updatedAt" := Stamp(now)], updO);
    if written.Err? {
      return st, Err(written.error);
    }
    st', r := Reload(st, written.value, (), fetchO);
  }

  /** The document after `precosPersonalizados.<clienteId>` is set: one key of the
      price map replaced or added (a missing or non-map field becomes a fresh map). */
  function WithOverride(d: Fields, clienteId: Id, preco: Parsed, now: Time): (r: Fields)
    ensures Touches(d, r, {"precosPersonalizados", "updatedAt"})
    ensures Overrides(r) == Overrides(d)[clienteId := ParsedValue(preco)]
    ensures r["precosPersonalizados"].Obj? && r["updatedAt"] == Stamp(now)
  {
    d["precosPersonalizados" := Obj(Overrides(d)[clienteId := ParsedValue(preco)])]["updatedAt" := Stamp(now)]
  }

  /** `setPrecoPersonalizado(materialId, clienteId, preco)`. */
  method SetPrecoPersonalizado(st: Store, materialId: Id, clienteId: Id, preco: Parsed, now: Time, updO: Outcome, fetchO: Outcome)
    returns (st': Store, r: Result<()>)
    ensures updO.Fails? || materialId !in st.docs ==> st' == st && r.Err?
    ensures updO.Done? && materialId in st.docs ==>
              && st'.docs.Keys == st.docs.Keys
              && var before, after := st.docs[materialId], st'.docs[materialId];
              && Touches(before, after, {"precosPersonalizados", "updatedAt"})
              && clienteId in Overrides(after) && Overrides(after)[clienteId] == ParsedValue(preco)
              && (forall c :: c in Overrides(before) && c != clienteId ==>
                    c in Overrides(after) && Overrides(after)[c] == Overrides(before)[c])
              && (forall c :: c in Overrides(after) ==> c in Overrides(before) || c == clienteId)
              && forall other :: other in st.docs && other != materialId ==> st'.docs[other] == st.docs[other]
    ensures r.Ok? <==> updO.Done? && materialId in st.docs && fetchO.Done?
    ensures r.Ok? ==> IsListing(st'.docs, st'.cache)
    ensures r.Err? ==> st'.cache == st.cache
  {
    if updO.Fails? {
      return st, Err(Backend(updO.reason));
    }
    if materialId !in st.docs {
      return st, Err(NotFound(materialId));
    }
    var docs := st.docs[materialId := WithOverride(st.docs[materialId], clienteId, preco, now)];
    st', r := Reload(st, docs, (), fetchO);
  }

  /** `deleteMaterial(id)`: a soft delete. Only `active` and `deletedAt` change, the
      document stays, and the next listing leaves it out. */
  method DeleteMaterial(st: Store, id: Id, now: Time, updO: Outcome, fetchO: Outcome)
    returns (st': Store, r: Result<()>)
    ensures updO.Fails? || id !in st.docs ==> st' == st && r.Err?
    ensures updO.Done? && id in st.docs ==>
              && st'.docs.Keys == st.docs.Keys
              && Touches(st.docs[id], st'.docs[id], {"active", "deletedAt"})
              && st'.docs[id]["active"] == Bool(false)
              && st'.docs[id]["deletedAt"] == Stamp(now)
              && forall other :: other in st.docs && other != id ==> st'.docs[other] == st.docs[other]
    ensures r.Ok? <==> updO.Done? && id in st.docs && fetchO.Done?
    ensures r.Ok? ==> IsListing(st'.docs, st'.cache) && forall e :: e in st'.cache ==> e.id != id
    ensures r.Err? ==> st'.cache == st.cache
  {
    var written := UpdateDoc(st.docs, id, map["active" := Bool(false), "deletedAt" := Stamp(now)], updO);
    if written.Err? {
      return st, Err(written.error);
    }
    st', r := Reload(st, written.value, (), fetchO);
  }

  /** Creation makes a catalog entry, and a soft delete or a price override keeps it
      one; only a free-form update can break the shape. */
  lemma CatalogShapeKept(d: Fields, clienteId: Id, preco: Parsed, now: Time)
    requires Catalogued(d)
    ensures Catalogued(d + map["active" := Bool(false), "deletedAt" := Stamp(now)])
    ensures Catalogued(WithOverride(d, clienteId, preco, now))
  {
  }

  // ---------------------------------------------------------------------------
  // Seeding

  /** The index of the first seeding step (add or refetch) that fails, or the number of
      steps when none does. */
  function FirstFailure(addOs: seq<Outcome>, fetchOs: seq<Outcome>): (k: nat)
    requires |addOs| == |fetchOs|
    ensures k <= |addOs|
    ensures forall i :: 0 <= i < k ==> addOs[i].Done? && fetchOs[i].Done?
    ensures k < |addOs| ==> addOs[k].Fails? || fetchOs[k].Fails?
    decreases |addOs|
  {
    if |addOs| == 0 then 0
    else if addOs[0].Fails? || fetchOs[0].Fails? then 0
    else 1 + FirstFailure(addOs[1..], fetchOs[1..])
  }

  /** How many default materials get written: a failed refetch comes after its add. */
  function Written(addOs: seq<Outcome>, fetchOs: seq<Outcome>): nat
    requires |addOs| == |fetchOs|
  {
    var k := FirstFailure(addOs, fetchOs);
    if k == |addOs| || addOs[k].Fails? then k else k + 1
  }

  /** The documents written by seeding `names` under `ids`, one after the other. */
  function Seeded(ids: seq<Id>, names: seq<string>, now: Time): map<Id, Fields>
    requires |ids| == |names|
    decreases |ids|
  {
    if |ids| == 0 then map[]
    else Seeded(ids[..|ids| - 1], names[..|names| - 1], now)[ids[|ids| - 1] := NewMaterial(names[|names| - 1], Number(0.0), now)]
  }

  lemma SeededStep(ids: seq<Id>, names: seq<string>, i: nat, now: Time)
    requires |ids| == |names| && i < |ids|
    ensures Seeded(ids[..i + 1], names[..i + 1], now) ==
              Seeded(ids[..i], names[..i], now)[ids[i] := NewMaterial(names[i], Number(0.0), now)]
  {
    assert ids[..i + 1][..i] == ids[..i];
    assert names[..i + 1][..i] == names[..i];
  }

  /** `initMateriais()`: reads the whole collection (active or not); only when it is
      empty, creates the default materials one by one at price 0, stopping at the first
      failure. */
  method InitMateriais(st: Store, now: Time, listO: Outcome, ids: seq<Id>, addOs: seq<Outcome>, fetchOs: seq<Outcome>)
    returns (st': Store, r: Result<()>)
    requires |ids| == |addOs| == |fetchOs| == |MateriaisPadrao|
    ensures listO.Fails? ==> st' == st && r == Err(Backend(listO.reason))
    ensures listO.Done? && |st.docs| > 0 ==> st' == st && r == Ok(())
    ensures listO.Done? && |st.docs| == 0 ==>
              var n := Written(addOs, fetchOs);
              st'.docs == Seeded(ids[..n], MateriaisPadrao[..n], now)
    ensures r.Ok? <==> listO.Done? && (|st.docs| > 0 || FirstFailure(addOs, fetchOs) == |MateriaisPadrao|)
    ensures r.Ok? && |st.docs| == 0 ==> IsListing(st'.docs, st'.cache)
  {
    if listO.Fails? {
      return st, Err(Backend(listO.reason));
    }
    if |st.docs| > 0 {
      return st, Ok(());
    }
    ghost var k := FirstFailure(addOs, fetchOs);
    st' := st;
    var i := 0;
    while i < |MateriaisPadrao|
      invariant 0 <= i <= |MateriaisPadrao|
      invariant i <= k
      invariant st'.docs == Seeded(ids[..i], MateriaisPadrao[..i], now)
      invariant i > 0 ==> IsListing(st'.docs, st'.cache)
    {
      SeededStep(ids, MateriaisPadrao, i, now);
      var created;
      st', created := CreateMaterial(st', MateriaisPadrao[i], Number(0.0), now, ids[i], addOs[i], fetchOs[i]);
      if created.Err? {
        assert i == k;
        return st', Err(created.error);
      }
      i := i + 1;
    }
    assert ids[..i] == ids && MateriaisPadrao[..i] == MateriaisPadrao;
    r := Ok(());
  }

  /** Seeding writes a document under each of the given ids and nowhere else. */
  lemma {:induction false} SeededKeys(ids: seq<Id>, names: seq<string>, now: Time)
    requires |ids| == |names|
    ensures forall k :: k in Seeded(ids, names, now) <==> k in ids
    decreases |ids|
  {
    if |ids| > 0 {
      var n := |ids| - 1;
      SeededKeys(ids[..n], names[..n], now);
      assert ids == ids[..n] + [ids[n]];
    }
  }

  /** With distinct ids, the document under each id is the default material of the
      same position, so every name gets exactly one document. */
  lemma {:induction false} SeededValues(ids: seq<Id>, names: seq<string>, now: Time)
    requires |ids| == |names|
    requires Distinct(ids)
    ensures |Seeded(ids, names, now)| == |ids|
    ensures forall i :: 0 <= i < |ids| ==>
              ids[i] in Seeded(ids, names, now) && Seeded(ids, names, now)[ids[i]] == NewMaterial(names[i], Number(0.0), now)
    decreases |ids|
  {
    if |ids| > 0 {
      var n := |ids| - 1;
      var init := Seeded(ids[..n], names[..n], now);
      assert Distinct(ids[..n]);
      SeededValues(ids[..n], names[..n], now);
      SeededKeys(ids[..n], names[..n], now);
      forall i | 0 <= i < n
        ensures ids[..n][i] == ids[i] && names[..n][i] == names[i] && ids[i] != ids[n]
      {
      }
      assert ids[n] !in ids[..n];
      assert ids[n] !in init;
    }
  }

  /** Seeding an empty catalog with all steps succeeding and distinct ids yields the
      thirteen default materials at price 0. */
  lemma FullSeedIsCatalog(ids: seq<Id>, now: Time)
    requires |ids| == |MateriaisPadrao| && Distinct(ids)
    ensures |Seeded(ids, MateriaisPadrao, now)| == 13
    ensures forall i :: 0 <= i < 13 ==>
              && ids[i] in Seeded(ids, MateriaisPadrao, now)
              && Seeded(ids, MateriaisPadrao, now)[ids[i]] == NewMaterial(MateriaisPadrao[i], Number(0.0), now)
              && Seeded(ids, MateriaisPadrao, now)[ids[i]]["nome"] == Str(MateriaisPadrao[i])
              && Seeded(ids, MateriaisPadrao, now)[ids[i]]["precoPadrao"] == Num(0.0)
              && Seeded(ids, MateriaisPadrao, now)[ids[i]]["active"] == Bool(true)
  {
    SeededKeys(ids, MateriaisPadrao, now);
    SeededValues(ids, MateriaisPadrao, now);
  }
}

=== FILE: notifications.dfy ===
/** Push notifications: a REST call to the push provider per recipient, followed by a
    best-effort entry in the recipient's `notifications` history in `users`. */
module Notifications {
  import opened Docs

  /** The two settings the dispatcher reads from the environment. */
  datatype Config = Config(appId: Option<string>, apiKey: Option<string>)

  /** Sending needs both settings, and neither may be empty. */
  predicate Configured(cfg: Config) {
    Present(cfg.appId) && Present(cfg.apiKey)
  }

  /** One request to the push provider's REST endpoint, addressed by external user id;
      the title and message go out in both language variants. */
  datatype PushRequest = PushRequest(appId: string, apiKey: string, userId: Id, title: string, message: string, data: Fields)

  /** What the request gave: a body parsed as JSON (whatever the HTTP status), a
      rejected request, or a body that is not JSON. */
  datatype PushReply = Replied(json: Value) | NetworkError(reason: string) | BadJson(reason: string)

  /** The profiles the history lives in, and every request handed to the push provider. */
  datatype Outbox = Outbox(users: map<Id, Fields>, sent: seq<PushRequest>)

  /** The outcome of one send: the new outbox and the parsed reply (`None` when the
      dispatcher is not configured and returns without a value). */
  datatype Sent = Sent(box: Outbox, result: Result<Option<Value>>)

  /** The history entry for one notification. */
  function HistoryRecord(title: string, message: string, data: Fields, now: Time): (v: Value)
    ensures v.Obj? && v.fields.Keys == {"title", "message", "data", "timestamp", "read"}
    ensures v.fields["title"] == Str(title) && v.fields["message"] == Str(message)
    ensures v.fields["data"] == Obj(data) && v.fields["read"] == Bool(false)
  {
    Obj(map["title" := Str(title), "message" := Str(message), "data" := Obj(data),
            "timestamp" := Stamp(now), "read" := Bool(false)])
  }

  /** `arrayUnion(x)` applied to a field's current value: an array gains `x` at the end
      unless an equal element is already there; anything else becomes `[x]`. */
  function ArrayUnion(current: Option<Value>, x: Value): (v: Value)
    ensures v.Arr? && x in v.items
    ensures current.Some? && current.value.Arr? ==>
              && |current.value.items| <= |v.items| <= |current.value.items| + 1
              && v.items[..|current.value.items|] == current.value.items
    ensures current.Some? && current.value.Arr? && x in current.value.items ==> v == current.value
    ensures current.Some? && current.value.Arr? && x !in current.value.items ==>
              v.items == current.value.items + [x]
    ensures !(current.Some? && current.value.Arr?) ==> v.items == [x]
  {
    if current.Some? && current.value.Arr? then
      if x in current.value.items then current.value else Arr(current.value.items + [x])
    else Arr([x])
  }

  function FieldOf(d: Fields, k: string): Option<Value> {
    if k in d then Some(d[k]) else None
  }

  /** `saveNotificationToFirestore`: appends the entry to `users/{userId}.notifications`.
      Any failure, including a missing profile, is swallowed and leaves `users` as it was. */
  function SaveNotification(users: map<Id, Fields>, userId: Id, title: string, message: string, data: Fields,
                            now: Time, o: Outcome): (r: map<Id, Fields>)
    ensures r.Keys == users.Keys
    ensures forall other :: other in users && other != userId ==> r[other] == users[other]
    ensures o.Fails? || userId !in users ==> r == users
    ensures o.Done? && userId in users ==>
              && Touches(users[userId], r[userId], {"notifications"})
              && r[userId]["notifications"].Arr?
              && HistoryRecord(title, message, data, now) in r[userId]["notifications"].items
    ensures o.Done? && userId in users ==>
              r[userId]["notifications"] == ArrayUnion(FieldOf(users[userId], "notifications"), HistoryRecord(title, message, data, now))
    ensures o.Done? && userId in users && "notifications" in users[userId] && users[userId]["notifications"].Arr? ==>
              var prev := users[userId]["notifications"].items;
              r[userId]["notifications"].items[..|prev|] == prev
  {
    if userId !in users then users
    else
      var entry := HistoryRecord(title, message, data, now);
      var patch := map["notifications" := ArrayUnion(FieldOf(users[userId], "notifications"), entry)];
      match UpdateDoc(users, userId, patch, o)
      case Ok(written) => written
      case Err(_) => users
  }

  /** `sendNotificationToUser(userId, title, message, data)`. Unconfigured, it returns at
      once. Otherwise the request goes out; a rejected request or a body that is not JSON
      is rethrown with no history written; a parsed reply is returned whatever becomes of
      the history entry. */
  function SendNotificationToUser(box: Outbox, cfg: Config, userId: Id, title: string, message: string,
                                  data: Fields, now: Time, reply: PushReply, saveO: Outcome): (r: Sent)
    ensures !Configured(cfg) ==> r == Sent(box, Ok(None))
    ensures Configured(cfg) ==>
              r.box.sent == box.sent + [PushRequest(cfg.appId.value, cfg.apiKey.value, userId, title, message, data)]
    ensures Configured(cfg) && reply.Replied? ==> r.result == Ok(Some(reply.json))
    ensures Configured(cfg) && !reply.Replied? ==> r.result.Err? && r.box.users == box.users
    ensures Configured(cfg) && reply.Replied? ==>
              r.box.users == SaveNotification(box.users, userId, title, message, data, now, saveO)
  {
    if !Configured(cfg) then Sent(box, Ok(None))
    else
      var sent := box.sent + [PushRequest(cfg.appId.value, cfg.apiKey.value, userId, title, message, data)];
      match reply
      case NetworkError(reason) => Sent(box.(sent := sent), Err(Backend(reason)))
      case BadJson(reason) => Sent(box.(sent := sent), Err(Backend(reason)))
      case Replied(json) =>
        Sent(Outbox(SaveNotification(box.users, userId, title, message, data, now, saveO), sent), Ok(Some(json)))
  }

  /** A failed history append never turns a delivered push into an error. */
  lemma HistoryFailureSwallowed(box: Outbox, cfg: Config, userId: Id, title: string, message: string,
                                data: Fields, now: Time, json: Value, reason: string)
    requires Configured(cfg)
    ensures var r := SendNotificationToUser(box, cfg, userId, title, message, data, now, Replied(json), Fails(reason));
            r.result == Ok(Some(json)) && r.box.users == box.users
  {
  }

  // ---------------------------------------------------------------------------
  // Canned notifications

  const ScheduledTitle := "Coleta Agendada"
  const ScheduledMessage := "Sua coleta foi agendada para breve. Tenha o recipiente pronto!"
  const CompletedTitle := "Coleta Concluída"
  const NewRequestTitle := "Nova Solicitação de Coleta"

  /** `notifyCollectionScheduled(clientId, coleta)`: one notification to the client. */
  function NotifyCollectionScheduled(box: Outbox, cfg: Config, clientId: Id, coletaId: Id, now: Time,
                                     reply: PushReply, saveO: Outcome): (r: Sent)
    ensures !Configured(cfg) ==> r.box == box && r.result.Ok?
    ensures Configured(cfg) ==> |r.box.sent| == |box.sent| + 1 && r.box.sent[..|box.sent|] == box.sent
    ensures Configured(cfg) ==>
              var req := r.box.sent[|box.sent|];
              && req.userId == clientId && req.title == ScheduledTitle && req.message == ScheduledMessage
              && req.data == map["type" := Str("collection_scheduled"), "coletaId" := Str(coletaId)]
    ensures Configured(cfg) && !reply.Replied? ==> r.result.Err? && r.box.users == box.users
    ensures Configured(cfg) && reply.Replied? ==>
              && r.result.Ok?
              && r.box.users == SaveNotification(box.users, clientId, ScheduledTitle, ScheduledMessage,
                                  map["type" := Str("collection_scheduled"), "coletaId" := Str(coletaId)], now, saveO)
  {
    SendNotificationToUser(box, cfg, clientId, ScheduledTitle, ScheduledMessage,
      map["type" := Str("collection_scheduled"), "coletaId" := Str(coletaId)], now, reply, saveO)
  }

  /** `notifyCollectionCompleted(clientId, coleta)`: `valorText` is the collection value
      as `toFixed(2)` prints it. */
  function NotifyCollectionCompleted(box: Outbox, cfg: Config, clientId: Id, coletaId: Id, valor: real,
                                     valorText: string, now: Time, reply: PushReply, saveO: Outcome): (r: Sent)
    ensures !Configured(cfg) ==> r.box == box && r.result.Ok?
    ensures Configured(cfg) ==> |r.box.sent| == |box.sent| + 1 && r.box.sent[..|box.sent|] == box.sent
    ensures Configured(cfg) ==>
              var req := r.box.sent[|box.sent|];
              && req.userId == clientId && req.title == CompletedTitle
              && req.message == "Coleta realizada! Valor: R$ " + valorText
              && req.data == map["type" := Str("collection_completed"), "coletaId" := Str(coletaId), "valor" := Num(valor)]
    ensures Configured(cfg) && !reply.Replied? ==> r.result.Err? && r.box.users == box.users
    ensures Configured(cfg) && reply.Replied? ==>
              && r.result.Ok?
              && r.box.users == SaveNotification(box.users, clientId, CompletedTitle, "Coleta realizada! Valor: R$ " + valorText,
                                  map["type" := Str("collection_completed"), "coletaId" := Str(coletaId), "valor" := Num(valor)], now, saveO)
  {
    SendNotificationToUser(box, cfg, clientId, CompletedTitle, "Coleta realizada! Valor: R$ " + valorText,
      map["type" := Str("collection_completed"), "coletaId" := Str(coletaId), "valor" := Num(valor)], now, reply, saveO)
  }

  /** Whatever went out is what the client's history records: after a delivered push and
      a successful save, the history holds an entry built from the very request sent,
      and the entries it held before keep their places. */
  lemma ScheduledHistoryMatchesPush(box: Outbox, cfg: Config, clientId: Id, coletaId: Id, now: Time, json: Value)
    requires Configured(cfg) && clientId in box.users
    ensures var r := NotifyCollectionScheduled(box, cfg, clientId, coletaId, now, Replied(json), Done);
            var req := r.box.sent[|box.sent|];
            && r.box.users[clientId]["notifications"].Arr?
            && HistoryRecord(req.title, req.message, req.data, now) in r.box.users[clientId]["notifications"].items
            && r.box.users[clientId]["notifications"]
               == ArrayUnion(FieldOf(box.users[clientId], "notifications"), HistoryRecord(req.title, req.message, req.data, now))
  {
  }

  /** The same for the completion notice. */
  lemma CompletedHistoryMatchesPush(box: Outbox, cfg: Config, clientId: Id, coletaId: Id, valor: real,
                                    valorText: string, now: Time, json: Value)
    requires Configured(cfg) && clientId in box.users
    ensures var r := NotifyCollectionCompleted(box, cfg, clientId, coletaId, valor, valorText, now, Replied(json), Done);
            var req := r.box.sent[|box.sent|];
            && r.box.users[clientId]["notifications"].Arr?
            && HistoryRecord(req.title, req.message, req.data, now) in r.box.users[clientId]["notifications"].items
            && r.box.users[clientId]["notifications"]
               == ArrayUnion(FieldOf(box.users[clientId], "notifications"), HistoryRecord(req.title, req.message, req.data, now))
  {
  }

  // ---------------------------------------------------------------------------
  // Fan-out to admins

  function NewRequestMessage(clienteNome: string, percentual: string): string {
    clienteNome + " solicitou uma coleta - " + percentual + "%"
  }

  function NewRequestData(solicitacaoId: Id): Fields {
    map["type" := Str("new_request"), "solicitacaoId" := Str(solicitacaoId)]
  }

  /** The request each admin receives: the same text and data, only the address differs. */
  function AdminRequests(cfg: Config, ids: seq<Id>, message: string, solicitacaoId: Id): (r: seq<PushRequest>)
    requires Configured(cfg)
    ensures |r| == |ids|
    ensures forall i :: 0 <= i < |ids| ==>
              r[i] == PushRequest(cfg.appId.value, cfg.apiKey.value, ids[i], NewRequestTitle, message, NewRequestData(solicitacaoId))
  {
    if |ids| == 0 then []
    else [PushRequest(cfg.appId.value, cfg.apiKey.value, ids[0], NewRequestTitle, message, NewRequestData(solicitacaoId))]
         + AdminRequests(cfg, ids[1..], message, solicitacaoId)
  }

  /** The position of the first send that throws, or the number of replies if none does. */
  function FirstThrow(replies: seq<PushReply>): (k: nat)
    ensures k <= |replies|
    ensures forall i :: 0 <= i < k ==> replies[i].Replied?
    ensures k < |replies| ==> !replies[k].Replied?
  {
    if |replies| == 0 then 0
    else if !replies[0].Replied? then 0
    else 1 + FirstThrow(replies[1..])
  }

  /** Reference definition of the fan-out: send to the first admin, stop on a throw,
      else carry on with the rest. */
  function FanOut(box: Outbox, cfg: Config, ids: seq<Id>, message: string, solicitacaoId: Id, now: Time,
                  replies: seq<PushReply>, saveOs: seq<Outcome>): (r: Sent)
    requires |replies| == |ids| && |saveOs| == |ids|
    ensures r.box.users.Keys == box.users.Keys
    decreases |ids|
  {
    if |ids| == 0 then Sent(box, Ok(None))
    else
      var one := SendNotificationToUser(box, cfg, ids[0], NewRequestTitle, message, NewRequestData(solicitacaoId),
                                        now, replies[0], saveOs[0]);
      if one.result.Err? then Sent(one.box, Err(one.result.error))
      else FanOut(one.box, cfg, ids[1..], message, solicitacaoId, now, replies[1..], saveOs[1..])
  }

  /** `notifyAdminNewRequest(adminIds, solicitacao)`: one send per admin, in list order,
      each awaited before the next; the first send that throws ends the loop and is
      rethrown. */
  method NotifyAdminNewRequest(box: Outbox, cfg: Config, adminIds: seq<Id>, clienteNome: string, percentual: string,
                               solicitacaoId: Id, now: Time, replies: seq<PushReply>, saveOs: seq<Outcome>)
    returns (box': Outbox, r: Result<()>)
    requires |replies| == |adminIds| && |saveOs| == |adminIds|
    ensures var ref := FanOut(box, cfg, adminIds, NewRequestMessage(clienteNome, percentual), solicitacaoId, now, replies, saveOs);
            box' == ref.box && (r.Ok? <==> ref.result.Ok?)
    ensures !Configured(cfg) ==> box' == box && r.Ok?
    ensures Configured(cfg) ==>
              && box'.sent == box.sent + AdminRequests(cfg, adminIds[..Reached(replies)], NewRequestMessage(clienteNome, percentual), solicitacaoId)
              && (r.Err? <==> FirstThrow(replies) < |adminIds|)
  {
    if !Configured(cfg) {
      FanOutUnconfigured(box, cfg, adminIds, NewRequestMessage(clienteNome, percentual), solicitacaoId, now, replies, saveOs);
    } else {
      FanOutSendsInOrder(box, cfg, adminIds, NewRequestMessage(clienteNome, percentual), solicitacaoId, now, replies, saveOs);
      FanOutThrows(box, cfg, adminIds, NewRequestMessage(clienteNome, percentual), solicitacaoId, now, replies, saveOs);
    }
    var message := NewRequestMessage(clienteNome, percentual);
    box' := box;
    var i := 0;
    while i < |adminIds|
      invariant 0 <= i <= |adminIds|
      invariant FanOut(box', cfg, adminIds[i..], message, solicitacaoId, now, replies[i..], saveOs[i..])
             == FanOut(box, cfg, adminIds, message, solicitacaoId, now, replies, saveOs)
    {
      var one := SendNotificationToUser(box', cfg, adminIds[i], NewRequestTitle, message, NewRequestData(solicitacaoId),
                                        now, replies[i], saveOs[i]);
      assert adminIds[i..][1..] == adminIds[i + 1..];
      assert replies[i..][1..] == replies[i + 1..];
      assert saveOs[i..][1..] == saveOs[i + 1..];
      if one.result.Err? {
        return one.box, Err(one.result.error);
      }
      box' := one.box;
      i := i + 1;
    }
    r := Ok(());
  }

  /** With the dispatcher unconfigured the fan-out does nothing and returns normally. */
  lemma {:induction false} FanOutUnconfigured(box: Outbox, cfg: Config, ids: seq<Id>, message: string, solicitacaoId: Id,
                                              now: Time, replies: seq<PushReply>, saveOs: seq<Outcome>)
    requires |replies| == |ids| && |saveOs| == |ids|
    requires !Configured(cfg)
    ensures FanOut(box, cfg, ids, message, solicitacaoId, now, replies, saveOs) == Sent(box, Ok(None))
    decreases |ids|
  {
    if |ids| > 0 {
      FanOutUnconfigured(box, cfg, ids[1..], message, solicitacaoId, now, replies[1..], saveOs[1..]);
    }
  }

  /** The position, in a list of `n` admins, just past the last one a send is attempted for. */
  function Reached(replies: seq<PushReply>): (m: nat)
    ensures m <= |replies|
  {
    if FirstThrow(replies) < |replies| then FirstThrow(replies) + 1 else |replies|
  }

  /** When configured, the fan-out throws exactly when some send failed. */
  lemma {:induction false} FanOutThrows(box: Outbox, cfg: Config, ids: seq<Id>, message: string, solicitacaoId: Id,
                                        now: Time, replies: seq<PushReply>, saveOs: seq<Outcome>)
    requires |replies| == |ids| && |saveOs| == |ids|
    requires Configured(cfg)
    ensures FanOut(box, cfg, ids, message, solicitacaoId, now, replies, saveOs).result.Err? <==> FirstThrow(replies) < |ids|
    decreases |ids|
  {
    if |ids| > 0 && replies[0].Replied? {
      var one := SendNotificationToUser(box, cfg, ids[0], NewRequestTitle, message, NewRequestData(solicitacaoId),
                                        now, replies[0], saveOs[0]);
      FanOutThrows(one.box, cfg, ids[1..], message, solicitacaoId, now, replies[1..], saveOs[1..]);
    }
  }

  /** When configured, admins up to and including the first failing one are sent the
      same request, in list order, and no one after it is. */
  lemma {:induction false} FanOutSendsInOrder(box: Outbox, cfg: Config, ids: seq<Id>, message: string, solicitacaoId: Id,
                                              now: Time, replies: seq<PushReply>, saveOs: seq<Outcome>)
    requires |replies| == |ids| && |saveOs| == |ids|
    requires Configured(cfg)
    ensures FanOut(box, cfg, ids, message, solicitacaoId, now, replies, saveOs).box.sent
         == box.sent + AdminRequests(cfg, ids[..Reached(replies)], message, solicitacaoId)
    decreases |ids|
  {
    if |ids| > 0 {
      var m := Reached(replies);
      var one := SendNotificationToUser(box, cfg, ids[0], NewRequestTitle, message, NewRequestData(solicitacaoId),
                                        now, replies[0], saveOs[0]);
      var head := PushRequest(cfg.appId.value, cfg.apiKey.value, ids[0], NewRequestTitle, message, NewRequestData(solicitacaoId));
      assert AdminRequests(cfg, ids[..m], message, solicitacaoId)
          == [head] + AdminRequests(cfg, ids[..m][1..], message, solicitacaoId);
      if replies[0].Replied? {
        FanOutSendsInOrder(one.box, cfg, ids[1..], message, solicitacaoId, now, replies[1..], saveOs[1..]);
        assert m == 1 + Reached(replies[1..]);
        assert ids[..m][1..] == ids[1..][..m - 1];
      } else {
        assert ids[..m][1..] == [];
      }
    }
  }

  /** When configured, the admins after the first failing one get no history entry:
      every profile outside the attempted prefix is left as it was. */
  lemma {:induction false} FanOutSparesTheRest(box: Outbox, cfg: Config, ids: seq<Id>, message: string, solicitacaoId: Id,
                                               now: Time, replies: seq<PushReply>, saveOs: seq<Outcome>, u: Id)
    requires |replies| == |ids| && |saveOs| == |ids|
    requires Configured(cfg)
    requires u in box.users && u !in ids[..Reached(replies)]
    ensures FanOut(box, cfg, ids, message, solicitacaoId, now, replies, saveOs).box.users[u] == box.users[u]
    decreases |ids|
  {
    if |ids| > 0 {
      var m := Reached(replies);
      assert ids[0] == ids[..m][0];
      if replies[0].Replied? {
        var one := SendNotificationToUser(box, cfg, ids[0], NewRequestTitle, message, NewRequestData(solicitacaoId),
                                          now, replies[0], saveOs[0]);
        assert m == 1 + Reached(replies[1..]);
        assert ids[1..][..m - 1] == ids[..m][1..];
        FanOutSparesTheRest(one.box, cfg, ids[1..], message, solicitacaoId, now, replies[1..], saveOs[1..], u);
      }
    }
  }
}

=== FILE: ordering.dfy ===
/** The order in which the backend sorts field values for `orderBy`: first by type
    (null, booleans, numbers, timestamps, strings, arrays, maps), then within a type.
    Strings compare code point by code point, which is the order of their UTF-8 bytes. */
module Ordering {
  import opened Docs

  /** Lexicographic order on strings. */
  predicate StrLe(a: string, b: string)
    decreases |a|
  {
    |a| == 0 || (|b| > 0 && (a[0] < b[0] || (a[0] == b[0] && StrLe(a[1..], b[1..]))))
  }

  lemma {:induction false} StrLeTotal(a: string, b: string)
    ensures StrLe(a, b) || StrLe(b, a)
    decreases |a|
  {
    if |a| > 0 && |b| > 0 && a[0] == b[0] {
      StrLeTotal(a[1..], b[1..]);
    }
  }

  lemma {:induction false} StrLeTrans(a: string, b: string, c: string)
    requires StrLe(a, b) && StrLe(b, c)
    ensures StrLe(a, c)
    decreases |a|
  {
    if |a| > 0 && |b| > 0 && |c| > 0 && a[0] == b[0] && b[0] == c[0] {
      StrLeTrans(a[1..], b[1..], c[1..]);
    }
  }

  /** Position of a value's type in the backend's cross-type order. */
  function Rank(v: Value): nat {
    match v
    case Null => 0
    case Bool(_) => 1
    case NaN => 2
    case Num(_) => 2
    case Stamp(_) => 3
    case Str(_) => 4
    case Arr(_) => 5
    case Obj(_) => 6
  }

  /** `a` sorts no later than `b`. NaN sorts before every number; arrays and maps of
      the same type are left unordered among themselves. */
  predicate ValueLe(a: Value, b: Value) {
    if Rank(a) != Rank(b) then Rank(a) < Rank(b)
    else match (a, b)
      case (Bool(x), Bool(y)) => !x || y
      case (NaN, _) => true
      case (Num(_), NaN) => false
      case (Num(x), Num(y)) => x <= y
      case (Stamp(x), Stamp(y)) => x <= y
      case (Str(x), Str(y)) => StrLe(x, y)
      case _ => true
  }

  lemma ValueLeTotal(a: Value, b: Value)
    ensures ValueLe(a, b) || ValueLe(b, a)
  {
    if a.Str? && b.Str? {
      StrLeTotal(a.s, b.s);
    }
  }

  lemma ValueLeTrans(a: Value, b: Value, c: Value)
    requires ValueLe(a, b) && ValueLe(b, c)
    ensures ValueLe(a, c)
  {
    if a.Str? && b.Str? && c.Str? {
      StrLeTrans(a.s, b.s, c.s);
    }
  }

  /** On two timestamps, the backend order is the order of the instants. */
  lemma ValueLeOnStamps(x: Time, y: Time)
    ensures ValueLe(Stamp(x), Stamp(y)) <==> x <= y
  {
  }
}

=== FILE: query.dfy ===
/** A one-collection query as the stores build them: an equality/range filter, one
    `orderBy` field with a direction, and an optional `limit`. */
module Query {
  import opened Docs
  import opened Ordering

  datatype Direction = Asc | Desc

  /** The `nome` field, the sort key of the client and material listings. */
  function NomeKey(d: Fields): Value {
    if "nome" in d then d["nome"] else Null
  }

  /** `a` may be listed before `b` when sorting on `key` in direction `dir`. */
  predicate Before<D>(a: Entry<D>, b: Entry<D>, key: D -> Value, dir: Direction) {
    match dir
    case Asc => ValueLe(key(a.doc), key(b.doc))
    case Desc => ValueLe(key(b.doc), key(a.doc))
  }

  ghost predicate Sorted<D>(s: seq<Entry<D>>, key: D -> Value, dir: Direction) {
    forall i, j :: 0 <= i < j < |s| ==> Before(s[i], s[j], key, dir)
  }

  ghost predicate Distinct<T>(s: seq<T>) {
    forall i, j :: 0 <= i < j < |s| ==> s[i] != s[j]
  }

  /** `e` is a document of `coll`, as stored, that the filter keeps. */
  ghost predicate Matches<D>(coll: map<Id, D>, keep: D -> bool, e: Entry<D>) {
    e.id in coll && coll[e.id] == e.doc && keep(e.doc)
  }

  lemma BeforeTotal<D>(a: Entry<D>, b: Entry<D>, key: D -> Value, dir: Direction)
    ensures Before(a, b, key, dir) || Before(b, a, key, dir)
  {
    ValueLeTotal(key(a.doc), key(b.doc));
  }

  lemma BeforeTrans<D>(a: Entry<D>, b: Entry<D>, c: Entry<D>, key: D -> Value, dir: Direction)
    requires Before(a, b, key, dir) && Before(b, c, key, dir)
    ensures Before(a, c, key, dir)
  {
    match dir
    case Asc => ValueLeTrans(key(a.doc), key(b.doc), key(c.doc));
    case Desc => ValueLeTrans(key(c.doc), key(b.doc), key(a.doc));
  }

  /** Inserts `x` before the first element it may precede. */
  function Insert<D>(x: Entry<D>, s: seq<Entry<D>>, key: D -> Value, dir: Direction): (r: seq<Entry<D>>)
    ensures multiset(r) == multiset(s) + multiset{x}
    decreases |s|
  {
    if |s| == 0 then [x]
    else if Before(x, s[0], key, dir) then [x] + s
    else
      assert s == [s[0]] + s[1..];
      [s[0]] + Insert(x, s[1..], key, dir)
  }

  function Sort<D>(s: seq<Entry<D>>, key: D -> Value, dir: Direction): (r: seq<Entry<D>>)
    ensures multiset(r) == multiset(s)
    decreases |s|
  {
    if |s| == 0 then []
    else
      assert s == [s[0]] + s[1..];
      Insert(s[0], Sort(s[1..], key, dir), key, dir)
  }

  /** Every element of `Insert(x, s)` is `x` or an element of `s`. */
  lemma InsertMember<D>(x: Entry<D>, s: seq<Entry<D>>, key: D -> Value, dir: Direction, y: Entry<D>)
    requires y in Insert(x, s, key, dir)
    ensures y == x || y in s
  {
    assert y in multiset(Insert(x, s, key, dir));
  }

  lemma {:induction false} InsertSorted<D>(x: Entry<D>, s: seq<Entry<D>>, key: D -> Value, dir: Direction)
    requires Sorted(s, key, dir)
    ensures Sorted(Insert(x, s, key, dir), key, dir)
    decreases |s|
  {
    if |s| == 0 {
    } else if Before(x, s[0], key, dir) {
      forall j | 0 < j < |s|
        ensures Before(x, s[j], key, dir)
      {
        BeforeTrans(x, s[0], s[j], key, dir);
      }
    } else {
      BeforeTotal(x, s[0], key, dir);
      InsertSorted(x, s[1..], key, dir);
      var rest := Insert(x, s[1..], key, dir);
      forall y | y in rest
        ensures Before(s[0], y, key, dir)
      {
        InsertMember(x, s[1..], key, dir, y);
        if y != x {
          var j :| 0 <= j < |s[1..]| && s[1..][j] == y;
          assert s[j + 1] == y;
        }
      }
      var r := [s[0]] + rest;
      assert r == Insert(x, s, key, dir);
      forall i, j | 0 <= i < j < |r|
        ensures Before(r[i], r[j], key, dir)
      {
        if i == 0 {
          assert r[j] == rest[j - 1];
        } else {
          assert r[i] == rest[i - 1] && r[j] == rest[j - 1];
        }
      }
    }
  }

  lemma {:induction false} SortSorted<D>(s: seq<Entry<D>>, key: D -> Value, dir: Direction)
    ensures Sorted(Sort(s, key, dir), key, dir)
    decreases |s|
  {
    if |s| > 0 {
      SortSorted(s[1..], key, dir);
      InsertSorted(s[0], Sort(s[1..], key, dir), key, dir);
    }
  }

  /** In a sequence without repeats, the head does not occur again in the tail. */
  lemma HeadNotInTail<T>(s: seq<T>)
    requires |s| > 0 && Distinct(s)
    ensures s[0] !in s[1..]
  {
    forall j | 0 <= j < |s[1..]|
      ensures s[1..][j] != s[0]
    {
      assert s[1..][j] == s[j + 1];
    }
  }

  lemma {:induction false} InsertDistinct<D>(x: Entry<D>, s: seq<Entry<D>>, key: D -> Value, dir: Direction)
    requires Distinct(s) && x !in s
    ensures Distinct(Insert(x, s, key, dir))
    decreases |s|
  {
    if |s| > 0 && !Before(x, s[0], key, dir) {
      HeadNotInTail(s);
      assert x !in s[1..] by {
        forall j | 0 <= j < |s[1..]|
          ensures s[1..][j] != x
        {
          assert s[1..][j] == s[j + 1];
        }
      }
      assert Distinct(s[1..]);
      InsertDistinct(x, s[1..], key, dir);
      var rest := Insert(x, s[1..], key, dir);
      assert multiset(rest)[s[0]] == 0;
      var r := [s[0]] + rest;
      forall i, j | 0 <= i < j < |r|
        ensures r[i] != r[j]
      {
        if i == 0 {
          assert r[j] == rest[j - 1];
        } else {
          assert r[i] == rest[i - 1] && r[j] == rest[j - 1];
        }
      }
    }
  }

  lemma {:induction false} SortDistinct<D>(s: seq<Entry<D>>, key: D -> Value, dir: Direction)
    requires Distinct(s)
    ensures Distinct(Sort(s, key, dir))
    decreases |s|
  {
    if |s| > 0 {
      HeadNotInTail(s);
      assert Distinct(s[1..]);
      SortDistinct(s[1..], key, dir);
      var sorted := Sort(s[1..], key, dir);
      assert multiset(sorted)[s[0]] == 0;
      InsertDistinct(s[0], sorted, key, dir);
    }
  }

  /** Reads the whole collection and keeps the documents the filter accepts, each once. */
  method Select<D(==)>(coll: map<Id, D>, keep: D -> bool) returns (r: seq<Entry<D>>)
    ensures forall e :: e in r <==> Matches(coll, keep, e)
    ensures Distinct(r)
  {
    r := [];
    var pending := coll.Keys;
    while pending != {}
      invariant pending <= coll.Keys
      invariant forall e :: e in r <==> e.id !in pending && Matches(coll, keep, e)
      invariant Distinct(r)
      decreases pending
    {
      var k :| k in pending;
      pending := pending - {k};
      if keep(coll[k]) {
        r := r + [Entry(k, coll[k])];
      }
    }
  }

  /** Sorting neither adds nor drops documents. */
  lemma SortSameMembers<D>(s: seq<Entry<D>>, key: D -> Value, dir: Direction)
    ensures forall e :: e in Sort(s, key, dir) <==> e in s
  {
    forall e ensures e in Sort(s, key, dir) <==> e in s {
      assert e in Sort(s, key, dir) <==> e in multiset(Sort(s, key, dir));
      assert e in s <==> e in multiset(s);
    }
  }

  /** The first `n` of a sorted sequence without repeats are sorted, have no repeats,
      and come before everything cut off. */
  lemma PrefixOfSorted<D>(s: seq<Entry<D>>, n: nat, key: D -> Value, dir: Direction)
    requires Sorted(s, key, dir) && Distinct(s) && n <= |s|
    ensures Sorted(s[..n], key, dir) && Distinct(s[..n])
    ensures forall x :: x in s[..n] ==> x in s
    ensures forall e, x :: e in s && e !in s[..n] && x in s[..n] ==> Before(x, e, key, dir)
  {
    var p := s[..n];
    forall e, x | e in s && e !in p && x in p
      ensures Before(x, e, key, dir)
    {
      var j :| 0 <= j < |s| && s[j] == e;
      var i :| 0 <= i < n && p[i] == x;
      forall m | 0 <= m < n
        ensures s[m] in p
      {
        assert p[m] == s[m];
      }
      assert j >= n;
      assert s[i] == x;
    }
  }

  /** Runs a query: the accepted documents, sorted on `key`, cut to the first `limit`
      when one is given. */
  method RunQuery<D(==)>(coll: map<Id, D>, keep: D -> bool, key: D -> Value, dir: Direction, limit: Option<nat>)
    returns (r: seq<Entry<D>>)
    ensures forall e :: e in r ==> Matches(coll, keep, e)
    ensures Distinct(r)
    ensures Sorted(r, key, dir)
    ensures limit.None? ==> forall e :: Matches(coll, keep, e) ==> e in r
    ensures limit.Some? ==> |r| <= limit.value
    ensures limit.Some? ==> forall e :: Matches(coll, keep, e) && e !in r ==>
              |r| == limit.value && forall x :: x in r ==> Before(x, e, key, dir)
  {
    var all := Select(coll, keep);
    var sorted := Sort(all, key, dir);
    SortSorted(all, key, dir);
    SortDistinct(all, key, dir);
    SortSameMembers(all, key, dir);
    if limit.None? || limit.value >= |sorted| {
      r := sorted;
    } else {
      r := sorted[..limit.value];
      PrefixOfSorted(sorted, limit.value, key, dir);
    }
    forall e | e in r
      ensures Matches(coll, keep, e)
    {
      assert e in sorted;
      assert e in multiset(sorted);
    }
  }
}

=== FILE: router.dfy ===
/** The dashboard's routes and the navigation guard that runs before every navigation. */
module Router {
  import opened Docs
  import opened Auth

  /** The meta flags a route carries; child routes of "/" inherit that record's flags. */
  datatype Meta = Meta(requiresAuth: bool, requiresGuest: bool, requiresAdmin: bool)

  datatype Route =
    | LoginPage
    | Dashboard
    | ClientesPage
    | ClienteDetalhesPage(id: string)
    | MateriaisPage
    | ColetasPage
    | NovaColetaPage
    | SolicitacoesPage
    | RelatoriosPage
    | ConfiguracoesPage

  function PathOf(r: Route): string {
    match r
    case LoginPage => "/login"
    case Dashboard => "/"
    case ClientesPage => "/clientes"
    case ClienteDetalhesPage(id) => "/clientes/" + id
    case MateriaisPage => "/materiais"
    case ColetasPage => "/coletas"
    case NovaColetaPage => "/coletas/nova"
    case SolicitacoesPage => "/solicitacoes"
    case RelatoriosPage => "/relatorios"
    case ConfiguracoesPage => "/configuracoes"
  }

  /** "/login" is for guests; every route under the "/" layout needs a signed-in admin. */
  function MetaOf(r: Route): (m: Meta)
    ensures r.LoginPage? ==> m == Meta(false, true, false)
    ensures !r.LoginPage? ==> m == Meta(true, false, true)
  {
    if r.LoginPage? then Meta(false, true, false) else Meta(true, false, true)
  }

  datatype Decision = Allow | Redirect(path: string)

  /** `user?.tipo`: the `tipo` property of the signed-in provider user, if it has one. */
  function UserTipo(user: Option<AuthUser>): Option<Value> {
    if user.Some? && "tipo" in user.value.props then Some(user.value.props["tipo"]) else None
  }

  /** The guard as written: the first rule that applies decides, and the admin rule
      reads `tipo` on the provider user object. The loading flag plays no part. */
  function Decide(m: Meta, user: Option<AuthUser>): (d: Decision)
    ensures m.requiresAuth && user.None? ==> d == Redirect("/login")
    ensures d == Allow <==>
              && (m.requiresAuth ==> user.Some?)
              && (m.requiresGuest ==> user.None?)
              && (m.requiresAdmin ==> UserTipo(user) == Some(Str("admin")))
    ensures d.Redirect? && !(m.requiresAuth && user.None?) ==> d == Redirect("/")
  {
    if m.requiresAuth && user.None? then Redirect("/login")
    else if m.requiresGuest && user.Some? then Redirect("/")
    else if m.requiresAdmin && UserTipo(user) != Some(Str("admin")) then Redirect("/")
    else Allow
  }

  /** The guard with the admin rule reading the loaded profile's `tipo`, which is where
      the dashboard keeps a user's role. */
  function DecideIntended(m: Meta, user: Option<AuthUser>, profile: Option<Fields>): (d: Decision)
    ensures m.requiresAuth && user.None? ==> d == Redirect("/login")
    ensures d == Allow <==>
              && (m.requiresAuth ==> user.Some?)
              && (m.requiresGuest ==> user.None?)
              && (m.requiresAdmin ==> profile.Some? && IsAdmin(profile.value))
    ensures d.Redirect? && !(m.requiresAuth && user.None?) ==> d == Redirect("/")
  {
    if m.requiresAuth && user.None? then Redirect("/login")
    else if m.requiresGuest && user.Some? then Redirect("/")
    else if m.requiresAdmin && !(profile.Some? && IsAdmin(profile.value)) then Redirect("/")
    else Allow
  }

  /** An anonymous visitor reaches only "/login"; every dashboard route sends them there. */
  lemma AnonymousGoesToLogin(r: Route, profile: Option<Fields>)
    ensures Decide(MetaOf(r), None) == (if r.LoginPage? then Allow else Redirect("/login"))
    ensures DecideIntended(MetaOf(r), None, profile) == Decide(MetaOf(r), None)
  {
  }

  /** A signed-in visitor to "/login" is sent to "/". */
  lemma SignedInLeavesLogin(u: AuthUser, profile: Option<Fields>)
    ensures Decide(MetaOf(LoginPage), Some(u)) == Redirect("/")
    ensures DecideIntended(MetaOf(LoginPage), Some(u), profile) == Redirect("/")
  {
  }

  /** As written, a signed-in user whose provider object has no admin `tipo` is
      redirected from any dashboard route to "/", and "/" redirects to itself. */
  lemma SelfRedirect(r: Route, u: AuthUser)
    requires !r.LoginPage? && UserTipo(Some(u)) != Some(Str("admin"))
    ensures Decide(MetaOf(r), Some(u)) == Redirect("/")
    ensures Decide(MetaOf(Dashboard), Some(u)) == Redirect(PathOf(Dashboard))
  {
  }

  /** The redirect target of the intended guard is never the route it came from when
      the visitor is an admin: admins are let through everywhere but "/login". */
  lemma IntendedNoSelfRedirect(r: Route, u: AuthUser, profile: Fields)
    requires IsAdmin(profile)
    ensures DecideIntended(MetaOf(r), Some(u), Some(profile)) == (if r.LoginPage? then Redirect("/") else Allow)
    ensures DecideIntended(MetaOf(Dashboard), Some(u), Some(profile)) == Allow
  {
  }

  /** The provider user of a password sign-in has no `tipo` of its own. */
  function PlainUser(uid: Id): AuthUser {
    AuthUser(uid, map[])
  }

  /** After a successful `login` with a plain provider user, the guard as written still
      turns the new admin away from every dashboard route, into a redirect loop on "/";
      the intended guard lets them in. */
  lemma LoginThenGuard(s: Session, sdk: bool, uid: Id, read: ProfileRead, signOutO: Outcome, r: Route)
    requires Auth.Login(s, sdk, Accepted(PlainUser(uid)), read, signOutO).result.Ok?
    requires !r.LoginPage?
    ensures var after := Auth.Login(s, sdk, Accepted(PlainUser(uid)), read, signOutO).session;
            && Decide(MetaOf(r), after.user) == Redirect("/")
            && DecideIntended(MetaOf(r), after.user, after.profile) == Allow
  {
  }
}

=== FILE: solicitacoes.dfy ===
/** Collection requests (`solicitacoes`): clients ask for a pickup, the admin moves the
    request through its statuses, and a live listener mirrors the pending ones. */
module Solicitacoes {
  import opened Docs
  import opened Ordering
  import opened Query

  // ---------------------------------------------------------------------------
  // Listing

  /** The keys of the date fields `updateStatus` stamps for the statuses that have one. */
  const Agendamento := "dataAgendamento"
  const Conclusao := "dataConclusao"

  /** `fetchSolicitacoes(status)` keeps every request that has a `dataSolicitacao` to
      order on, narrowed to one status when a (non-empty) status is given. */
  predicate Wanted(status: Option<string>, d: Fields) {
    && "dataSolicitacao" in d
    && (Present(status) ==> "status" in d && d["status"] == Str(status.value))
  }

  function DataKey(d: Fields): Value {
    if "dataSolicitacao" in d then d["dataSolicitacao"] else Null
  }

  ghost predicate IsListing(docs: map<Id, Fields>, status: Option<string>, l: seq<Entry<Fields>>) {
    && (forall e :: e in l <==> Matches(docs, d => Wanted(status, d), e))
    && Distinct(l)
    && Sorted(l, DataKey, Desc)
  }

  /** A subscription the provider hands out for `onSnapshot`. */
  type SubId = nat

  /** The store: the collection (`docs`); the one `solicitacoes` list that the fetches
      and the live listener both write (`cache`); the `unsubscribe` variable (`handle`);
      and the subscriptions the provider still keeps alive (`live`). */
  datatype Store = Store(docs: map<Id, Fields>, cache: seq<Entry<Fields>>, handle: Option<SubId>, live: set<SubId>)

  /** `fetchSolicitacoes(status)`: the listing replaces the cached list; a failed read
      is rethrown and leaves it as it was. */
  method FetchSolicitacoes(st: Store, status: Option<string>, o: Outcome) returns (st': Store, r: Result<()>)
    ensures o.Fails? ==> st' == st && r == Err(Backend(o.reason))
    ensures r.Ok? <==> o.Done?
    ensures st'.docs == st.docs && st'.handle == st.handle && st'.live == st.live
    ensures r.Ok? ==> IsListing(st.docs, status, st'.cache)
  {
    if o.Fails? {
      return st, Err(Backend(o.reason));
    }
    var found := RunQuery(st.docs, d => Wanted(status, d), DataKey, Desc, None);
    st' := st.(cache := found);
    r := Ok(());
  }

  /** With a status, the listing holds exactly the dated requests in that status; with
      none (or ""), every dated request. */
  lemma ListingByStatus(docs: map<Id, Fields>, status: Option<string>, l: seq<Entry<Fields>>, id: Id)
    requires IsListing(docs, status, l)
    requires id in docs && "dataSolicitacao" in docs[id]
    ensures !Present(status) ==> Entry(id, docs[id]) in l
    ensures Present(status) ==>
              (Entry(id, docs[id]) in l <==> "status" in docs[id] && docs[id]["status"] == Str(status.value))
  {
    assert Matches(docs, d => Wanted(status, d), Entry(id, docs[id])) <==> Wanted(status, docs[id]);
  }

  /** Requests are listed newest first: on `dataSolicitacao` stamps, an earlier position
      never holds an older request. */
  lemma ListingNewestFirst(docs: map<Id, Fields>, status: Option<string>, l: seq<Entry<Fields>>, i: int, j: int)
    requires IsListing(docs, status, l)
    requires 0 <= i < j < |l|
    requires DataKey(l[i].doc).Stamp? && DataKey(l[j].doc).Stamp?
    ensures DataKey(l[j].doc).t <= DataKey(l[i].doc).t
  {
    assert Before(l[i], l[j], DataKey, Desc);
    ValueLeOnStamps(DataKey(l[j].doc).t, DataKey(l[i].doc).t);
  }

  // ---------------------------------------------------------------------------
  // Status updates

  /** The record `updateStatus(id, status, dados)` writes: `status` and `updatedAt`, then
      the caller's `dados` spread over them, then the date of the new status. */
  function StatusUpdate(status: string, dados: Fields, now: Time): (r: Fields)
    ensures r.Keys == {"status", "updatedAt"} + dados.Keys
                      + (if status == "agendada" then {Agendamento} else {})
                      + (if status == "concluida" then {Conclusao} else {})
    ensures r["status"] == (if "status" in dados then dados["status"] else Str(status))
    ensures r["updatedAt"] == (if "updatedAt" in dados then dados["updatedAt"] else Stamp(now))
    ensures status == "agendada" ==> r[Agendamento] == Stamp(now)
    ensures status == "concluida" ==> r[Conclusao] == Stamp(now)
    ensures forall k :: (k in dados && !(status == "agendada" && k == Agendamento)
                         && !(status == "concluida" && k == Conclusao)) ==> r[k] == dados[k]
  {
    var base := map["status" := Str(status), "updatedAt" := Stamp(now)] + dados;
    if status == "agendada" then base[Agendamento := Stamp(now)]
    else if status == "concluida" then base[Conclusao := Stamp(now)]
    else base
  }

  /** Only one of the two dates is ever stamped, and none for other statuses: a date key
      ends up in the record exactly when its status was asked for or the caller passed it. */
  lemma StatusDatesExclusive(status: string, dados: Fields, now: Time)
    ensures var r := StatusUpdate(status, dados, now);
            && (Agendamento in r <==> status == "agendada" || Agendamento in dados)
            && (Conclusao in r <==> status == "concluida" || Conclusao in dados)
  {
  }

  /** `updateStatus(id, status, dados)`: any status may follow any other, the record is
      merged over the stored request, and the full listing is refetched. */
  method UpdateStatus(st: Store, id: Id, status: string, dados: Fields, now: Time, updO: Outcome, fetchO: Outcome)
    returns (st': Store, r: Result<()>)
    ensures st'.handle == st.handle && st'.live == st.live
    ensures updO.Fails? || id !in st.docs ==> st' == st && r.Err?
    ensures updO.Done? && id in st.docs ==>
              && st'.docs.Keys == st.docs.Keys
              && Touches(st.docs[id], st'.docs[id], StatusUpdate(status, dados, now).Keys)
              && (forall k :: k in StatusUpdate(status, dados, now) ==> st'.docs[id][k] == StatusUpdate(status, dados, now)[k])
              && forall other :: other in st.docs && other != id ==> st'.docs[other] == st.docs[other]
    ensures r.Ok? <==> updO.Done? && id in st.docs && fetchO.Done?
    ensures r.Ok? ==> IsListing(st'.docs, None, st'.cache)
    ensures r.Err? ==> st'.cache == st.cache
  {
    var written := UpdateDoc(st.docs, id, StatusUpdate(status, dados, now), updO);
    if written.Err? {
      return st, Err(written.error);
    }
    st', r := FetchSolicitacoes(st.(docs := written.value), None, fetchO);
  }

  /** The current status never gates an update: from whatever status the request is in,
      asking for `target` without overriding `status` in `dados` leaves it in `target`. */
  lemma AnyTransition(docs: map<Id, Fields>, id: Id, target: string, dados: Fields, now: Time)
    requires id in docs && "status" !in dados
    ensures UpdateDoc(docs, id, StatusUpdate(target, dados, now), Done).Ok?
    ensures UpdateDoc(docs, id, StatusUpdate(target, dados, now), Done).value[id]["status"] == Str(target)
  {
    var patch := StatusUpdate(target, dados, now);
    assert "status" in patch;
  }

  // ---------------------------------------------------------------------------
  // Live listener

  /** `listenToSolicitacoes(callback)`: a new subscription replaces the handle; one held
      before is not released and stays alive. */
  function Listen(st: Store, sub: SubId): (r: Store)
    requires sub !in st.live
    ensures r.handle == Some(sub) && r.live == st.live + {sub}
    ensures r.docs == st.docs && r.cache == st.cache
  {
    st.(handle := Some(sub), live := st.live + {sub})
  }

  /** `stopListening()`: releases the held subscription, if any, and clears the handle. */
  function StopListening(st: Store): (r: Store)
    ensures r.handle.None? && r.docs == st.docs && r.cache == st.cache
    ensures st.handle.Some? ==> r.live == st.live - {st.handle.value}
    ensures st.handle.None? ==> r == st
  {
    match st.handle
    case None => st
    case Some(sub) => st.(handle := None, live := st.live - {sub})
  }

  lemma StopListeningIdempotent(st: Store)
    ensures StopListening(StopListening(st)) == StopListening(st)
  {
  }

  /** Listening twice and then stopping leaves the first subscription alive. */
  lemma SecondListenLeaks(st: Store, first: SubId, second: SubId)
    requires first !in st.live && second !in st.live + {first}
    ensures first in StopListening(Listen(Listen(st, first), second)).live
    ensures StopListening(Listen(Listen(st, first), second)).handle.None?
  {
  }

  /** The listener's query. */
  predicate Pending(d: Fields) {
    "status" in d && d["status"] == Str("pendente") && "dataSolicitacao" in d
  }

  /** One snapshot for subscription `sub` over the current collection. A live
      subscription delivers the pending requests newest first to the callback (returned
      here) and overwrites the store's list with them, whatever listing a fetch or an
      update left there; a released one delivers nothing. */
  method OnSnapshot(st: Store, sub: SubId) returns (st': Store, delivered: Option<seq<Entry<Fields>>>)
    ensures st'.docs == st.docs && st'.handle == st.handle && st'.live == st.live
    ensures sub !in st.live ==> st' == st && delivered.None?
    ensures sub in st.live ==> delivered.Some? && st'.cache == delivered.value
    ensures sub in st.live ==> IsListing(st.docs, Some("pendente"), st'.cache)
    ensures delivered.Some? ==>
              && (forall e :: e in delivered.value <==> Matches(st.docs, Pending, e))
              && Distinct(delivered.value)
              && Sorted(delivered.value, DataKey, Desc)
  {
    if sub !in st.live {
      return st, None;
    }
    var found := RunQuery(st.docs, Pending, DataKey, Desc, None);
    forall e ensures Matches(st.docs, Pending, e) <==> Matches(st.docs, d => Wanted(Some("pendente"), d), e) {
      PendingIsStatusListing(e.doc);
    }
    st' := st.(cache := found);
    delivered := Some(found);
  }

  /** The pending listing is the status listing for "pendente". */
  lemma PendingIsStatusListing(d: Fields)
    ensures Pending(d) <==> Wanted(Some("pendente"), d)
  {
  }

  /** Because fetches and the listener share one list, a snapshot throws away what the
      unfiltered refetch of `updateStatus` put there: a dated request that is not pending
      is in the refetched list and is gone from the list the snapshot leaves. */
  lemma SnapshotDropsRefetched(docs: map<Id, Fields>, refetched: seq<Entry<Fields>>, snapped: seq<Entry<Fields>>, id: Id)
    requires IsListing(docs, None, refetched) && IsListing(docs, Some("pendente"), snapped)
    requires id in docs && "dataSolicitacao" in docs[id] && !Pending(docs[id])
    ensures Entry(id, docs[id]) in refetched && Entry(id, docs[id]) !in snapped
  {
    ListingByStatus(docs, None, refetched, id);
    ListingByStatus(docs, Some("pendente"), snapped, id);
  }
}
